=== FILE: README.md ===
# LSRGAN evaluation loop, modelled in Dafny

This project models the evaluation script `codes/test.py` of LSRGAN, a
super-resolution GAN. For every test dataset the script runs the generator on
each low-resolution image. It then derives the image's name and the path its
output is saved under. When the dataset has ground truth, it crops a border of
`scale` pixels off both images and measures PSNR, SSIM and a uint8 L1 loss on
the crops. For three-channel ground truth it also measures them on the luma
channel. It appends every value to six per-dataset lists and finally prints
their means and standard deviations.

The model keeps the script's behaviour, including three surprising parts:

- `pre - gt` on `uint8` arrays wraps modulo 256. So `L1_loss` is not symmetric,
  and a prediction one level darker everywhere scores the maximum loss, 1.
- A border of 0 slices `img[0:0, 0:0, :]`, which is empty, not the whole image.
- `need_HR` and `l1_y_loss` are module-level names. A grayscale image prints
  whatever `l1_y_loss` the most recent colour image left. That image may belong
  to an earlier dataset. If no colour image came before, the name is unbound
  and the script stops. An empty dataset reads the `need_HR` of the previous
  dataset, or an unbound name if it is the first one.

Modules:

- `Wrappers`: `Option` and `Result` with the `:-` operator.
- `Paths`: `basename`, `splitext` and `join` in their POSIX form, the image
  name, and the save path.
- `Images`: `uint8` images as height x width x channel sequences, Python slice
  bounds, and the border crop.
- `Loss`: `L1_loss` with wrapping subtraction. Its error cases are a shape
  mismatch and an empty array.
- `Stats`: `sum / len`, `np.mean`, and the population variance behind `np.std`.
- `Records`: one image's metrics, the six lists, how recording extends them,
  and the dataset summary with its luma gate.
- `Evaluation`: one image, the loop over a dataset, the summary gate on
  `need_HR`, and the run over all datasets.

The evaluation loop is generic in a `LoopConfig`, which holds three things:

- a measurement `Sample -> Result<MetricRecord, RunError>`,
- a namer that maps an input path to an image name and a save path,
- the `dataroot_HR` flag.

`DatasetConfig` builds the configuration the script uses from these parts:
`MeasureFn` (crop, L1, and the PSNR/SSIM/luma parameters), `NamerFor`
(`ImageName` and `SavePath` under `DatasetDir`) and the dataset's flag.
`DatasetConfigFields`, `MeasureFnMeasuresSample` and `NamerForNames` connect
the concrete configuration to the generic lemmas. `MeasureFnMeasuresSample`
also establishes `Faithful`, the only property of the measurement that the loop
lemmas assume.

## Model

| member | source | states |
|---|---|---|
| Paths.Basename | codes/test.py:60 | The base name holds no `/`. It is a suffix of the path, and when shorter than the path it is preceded by `/`. |
| Paths.Splitext | codes/test.py:60 | Root and extension concatenate back to the input. A non-empty extension starts with `.` and contains no other `.` and no `/`. |
| Paths.SplitextSplitsIffExtension | codes/test.py:60 | `splitext` splits something off exactly when the base name has a dot after some non-dot character, so leading-dot names keep their dot. |
| Paths.ImageName | codes/test.py:60 | The image name contains no `/`, is a prefix of the base name of `LR_path`, and followed by `Splitext`'s extension gives back the base name: exactly the final extension is removed. |
| Paths.ImageNameStripsIffExtension | codes/test.py:60 | The image name differs from the base name exactly when the base name has an extension. |
| Paths.BasenameOfComponent | codes/test.py:60 | The base name of a string without `/` is the string itself. |
| Paths.Join | codes/test.py:43 | `os.path.join(a, b)` ends with `b`. An absolute `b` (starting with `/`) replaces `a`. Otherwise the result is `DirPrefix(a) + b`: `a` as is when it is empty or already ends in `/`, else `a` followed by one `/`. |
| Paths.DatasetDir | codes/test.py:43 | The dataset directory is `results_root/<name>` when the dataset name is relative and non-empty. |
| Paths.SaveFileName | codes/test.py:97-101 | The file name is `<name><suffix>.png` for a truthy suffix and `<name>.png` for `None` or `''`. In both cases it ends in `.png`. |
| Paths.SavePath | codes/test.py:97-101 | Every save path ends in `.png`. |
| Paths.SavePathInDatasetDir | codes/test.py:97-101 | For a non-empty image name the output file sits directly inside the dataset directory, whatever the suffix. |
| Paths.SavePathEmptyNameAbsoluteSuffix | codes/test.py:97-101 | An input path ending in `/` gives an empty image name, and then a suffix starting with `/` saves outside the dataset directory. |
| Images.SliceBound | codes/test.py:70-72 | A slice bound lands within the axis. Negative bounds count from the end, and both kinds clamp. |
| Images.PySlice | codes/test.py:70-72 | `s[start:stop]` has the Python slice length, and element `i` is `s[lower + i]`. |
| Images.CropAxisPositive | codes/test.py:70-71 | For `c >= 1`, `s[c:-c]` has length `max(n - 2c, 0)` and element `i` is `s[i + c]`. |
| Images.Crop | codes/test.py:70-72 | Height and width are the Python slice lengths and channels are untouched. Output pixel `(i, j)` is an input pixel offset by the lower bounds. A border of 0 leaves an empty image. |
| Images.CropPositive | codes/test.py:70-72 | For a positive border both spatial axes lose `2c` (down to 0), channels are kept, and pixel `(i, j)` is input pixel `(i + c, j + c)`. |
| Loss.WrapSub | codes/test.py:16 | `uint8` subtraction gives `a - b` when `a >= b` and `a - b + 256` otherwise. It is zero exactly when `a == b`. |
| Loss.AbsDiffSumBound | codes/test.py:16 | `np.sum(np.abs(pre - gt))` is at most `255 * size`, and zero exactly for equal images. |
| Loss.L1Loss | codes/test.py:14-16 | Different shapes give a shape error, and equal shapes of size 0 give an empty-array error. Otherwise the loss lies in [0, 1]. |
| Loss.L1ZeroIffIdentical | codes/test.py:14-16 | The loss is `Ok(0)` exactly when the two images are the same non-empty image. |
| Loss.L1ConstantOffset | codes/test.py:16 | If `pre` is `gt` plus `d` (wrapped) everywhere, the loss is `(d mod 256) / 255`. |
| Loss.L1UniformIncrement | codes/test.py:16 | A prediction one level brighter everywhere scores `1/255`. |
| Loss.L1UniformDecrement | codes/test.py:16 | A prediction one level darker everywhere scores 1, the maximum. |
| Loss.L1DependsOnArgumentOrder | codes/test.py:16 | Swapping the arguments of a 1x1x1 pair changes the loss from `1/255` to 1. |
| Stats.Mean | codes/test.py:106-108 | `sum(xs) / len(xs)` is the value that, taken `len(xs)` times, gives the sum. |
| Stats.Variance | codes/test.py:109-115 | The population variance (divided by N) is non-negative. |
| Stats.SumOfPermutation | codes/test.py:106-108 | Reordering the recorded values does not change their sum. |
| Stats.MeanBounds | codes/test.py:106-108 | The mean lies between any lower and upper bound of the values. |
| Stats.MeanVariancePermutation | codes/test.py:106-116 | Mean and variance do not depend on the order the values were recorded in. |
| Stats.VarianceZeroIffConstant | codes/test.py:109-115 | The variance is zero exactly when all recorded values are equal. |
| Stats.PopulationVarianceExample | codes/test.py:110 | `np.std` divides by N: the values 0 and 2 have variance 1, not 2. |
| Stats.NpMean | codes/test.py:108-116 | An accumulating loop for `np.mean` equals `sum(xs) / len(xs)`, so `L1_mean == ave_l1`. numpy sums pairwise, but over exact reals the summation order does not matter. |
| Records.Record | codes/test.py:74-87 | One image adds exactly one element to `psnr`, `ssim` and `L1`. It adds one to each of `psnr_y`, `ssim_y` and `Y_L1` exactly when it has luma metrics. The luma lists keep equal lengths no longer than the main lists. |
| Records.Columns | codes/test.py:46-52 | The lists a sequence of records should leave keep the luma lists equal in length and no longer than the main lists. There is one `psnr` entry per record. |
| Records.RecordExtendsColumns | codes/test.py:74-87 | Recording one more image yields the lists of the extended record sequence. |
| Records.LumasPresentIff | codes/test.py:80-87 | The luma lists are non-empty exactly when some record has luma metrics. |
| Records.ColumnsPermutation | codes/test.py:74-87 | Reordering the records permutes each of the six lists. |
| Records.Summarize | codes/test.py:104-133 | The summary fails (division by zero) exactly when `psnr` is empty. All variances are non-negative. The luma summary exists exactly when `psnr_y` and `ssim_y` are both non-empty. Each of the twelve printed values is `Stats.Mean` or `Stats.Variance` of its own list: `ave_psnr`, `ave_ssim` and `L1_mean` of `psnr`, `ssim` and `L1`, and the luma ones of `psnr_y`, `ssim_y` and `Y_L1`. |
| Records.SummarizeOrderIndependent | codes/test.py:104-133 | Lists equal up to order give the same summary. |
| Records.SummaryOfRecordsOrderIndependent | codes/test.py:104-133 | Recording the same images in any order gives the same summary. |
| Records.SummaryPresence | codes/test.py:104-120 | Over recorded images the summary exists exactly when at least one image was recorded. The luma summary exists exactly when some image had luma metrics, so an all-grayscale set has none. |
| Records.SummaryL1InUnitRange | codes/test.py:108-130 | If each image's L1 lies in [0, 1], so do `ave_l1` and `Y_L1_mean`. |
| Evaluation.Measure | codes/test.py:67-88 | Measuring succeeds exactly when the two crops have one shape and are not empty and, for three-channel ground truth, so do their luma images. A crop shape mismatch and an empty crop are the errors. PSNR, SSIM (`multichannel=True`) and L1 are those of the crops. Luma metrics are present exactly for three-channel ground truth, and are PSNR, SSIM (`multichannel=False`) and L1 of the crops' luma images. L1 and luma L1 lie in [0, 1], and L1 is 0 exactly when the crops are equal. |
| Evaluation.GrayPairMeasurable | codes/test.py:67-79 | A grayscale pair of one shape, larger than twice a positive border on both axes, is always measured, with no luma metrics and the L1 of its crops. |
| Evaluation.ZeroScaleMeasuresNothing | codes/test.py:69-72 | With `scale` 0 the crops are empty and no image can be measured. |
| Evaluation.MeasureSample | codes/test.py:61-88 | Without a loaded ground truth the image fails (`data['HR']`, SRRaGAN_model.py lines 25-26). Otherwise it succeeds exactly when `Measure` does, and the record is `Measure`'s record. Luma metrics are present exactly for colour images. |
| Evaluation.MeasureSampleFaithful | codes/test.py:67-88 | The script's measurement satisfies what the loop relies on: luma exactly for colour images, and L1 values in [0, 1]. |
| Evaluation.Process | codes/test.py:56-95 | One image succeeds exactly when it is measurable and, with ground truth, it is a colour image or `l1_y_loss` is bound. It sets `need_HR` and prints the image name. Without ground truth nothing is recorded. With it the lists grow by `Record`. A grayscale line repeats the old `l1_y_loss`, which stays the last `Y_L1` entry. |
| Evaluation.GrayLineRepeatsLastLumaL1 | codes/test.py:93 | After a colour image, a grayscale image's line prints the last value of the `Y_L1` list. |
| Evaluation.Step | codes/test.py:56-102 | One loop iteration appends exactly one report, carrying the image's line and save path, and keeps what `Process` computed. |
| Evaluation.RunSamples | codes/test.py:55-102 | The loop over a dataset gives one report per image and keeps the earlier ones. The lists stay well formed. `psnr` grows by the image count when there is ground truth. `psnr_y` grows by the number of colour images. `need_HR` holds the dataset's flag after any image, and `l1_y_loss` is the last `Y_L1` entry. `Y_L1` never shrinks, and while it does not grow `l1_y_loss` is left as it was. |
| Evaluation.RunSamplesOkIff | codes/test.py:55-102 | The loop gets through exactly when every image is measurable and a grayscale first image finds `l1_y_loss` already bound. |
| Evaluation.RunSamplesReports | codes/test.py:59-102 | Report `i` has image `i`'s name and save path. Without ground truth its line is the bare name. |
| Evaluation.RunSamplesKeepsResults | codes/test.py:55-95 | Without ground truth the six lists are left unchanged. |
| Evaluation.RunSamplesRecords | codes/test.py:67-88 | With ground truth the six lists are the columns of the images' records, in loader order, after what was there before. |
| Evaluation.StepRecords | codes/test.py:67-88 | With ground truth one image adds its record to the columns. |
| Evaluation.RecordedAll | codes/test.py:55-88 | When every image is measurable, each one contributes its own record, in order. |
| Evaluation.RecordedLumas | codes/test.py:80-88 | Among measurable images, a record has luma metrics exactly when it comes from a colour image. |
| Evaluation.GrayRunKeepsStale | codes/test.py:93 | A run of grayscale images after `l1_y_loss` was bound prints that same value on every line and leaves it unchanged. |
| Evaluation.ReportSummary | codes/test.py:104-133 | An unbound `need_HR` is an error. `False` prints no summary. `True` prints a summary exactly when `psnr` is non-empty, and that summary is `Summarize` of the lists. |
| Evaluation.EvaluateWith | codes/test.py:46-133 | One dataset gives one report per image and well formed lists. It updates `need_HR` only if it has images, and leaves `l1_y_loss` at the last `Y_L1` entry. A dataset that records no `Y_L1` value leaves `l1_y_loss` as it was. |
| Evaluation.DatasetConfigFields | codes/test.py:43-69 | A dataset's loop has ground truth exactly when `dataroot_HR` is set. It measures at the dataset `scale` and names images under `results_root/<name>`. |
| Evaluation.MeasureFnMeasuresSample | codes/test.py:67-88 | The configured measurement is `MeasureSample`, and it is `Faithful`. |
| Evaluation.NamerForNames | codes/test.py:59-101 | The configured namer gives `ImageName(LR_path)` and `SavePath(dataset_dir, name, suffix)`. |
| Evaluation.RunAllWith | codes/test.py:39-133 | Running all datasets gives one outcome per dataset with one report per image and well formed lists. A run of only empty datasets leaves `need_HR` as it was. That each dataset starts from the `need_HR` and `l1_y_loss` the previous one left is stated by `TwoDatasets`, `EmptyAfterGroundTruthFails` and `RunAllRepeatsStaleLumaL1`. |
| Evaluation.RunAll | codes/test.py:39-133 | The script, starting with `need_HR` and `l1_y_loss` unbound, gives one outcome per dataset with one report per image and well formed lists. Its datasets share those names, as `RunAllEmptyAfterGroundTruthFails` and `RunAllGrayAfterNoGroundTruthFails` show. |
| Evaluation.LeadingEmptyDatasetFails | codes/test.py:104 | If the first dataset is empty, the script stops at its summary with `need_HR` unbound. |
| Evaluation.RunAllLeadingEmptyDatasetFails | codes/test.py:39-104 | The script with the configuration it builds from each dataset's options stops with `need_HR` unbound when its first dataset is empty. |
| Evaluation.GrayAfterNoLumaFails | codes/test.py:80-93 | If the first dataset recorded no `Y_L1` value, a second dataset whose first image is grayscale stops on the unbound `l1_y_loss`. |
| Evaluation.RunAllGrayAfterNoGroundTruthFails | codes/test.py:39-93 | The script stops on the unbound `l1_y_loss` when a dataset without ground truth is followed by one whose first image is a measurable grayscale pair. |
| Evaluation.DatasetWithoutGroundTruth | codes/test.py:56-104 | Without ground truth every image prints its bare name and is saved at its path. Nothing is recorded and no summary is printed. |
| Evaluation.DatasetWithGroundTruth | codes/test.py:55-133 | With ground truth and measurable images the lists are the records in loader order. `psnr` has one entry per image and `psnr_y` one per colour image. The summary is printed, with a luma part exactly when some image is a colour image. |
| Evaluation.GrayFirstImageFails | codes/test.py:93 | A grayscale first image with no colour image before it stops the run on the unbound `l1_y_loss`. |
| Evaluation.GrayDatasetRepeatsStaleLumaL1 | codes/test.py:93-120 | A grayscale dataset after a colour image repeats that stale luma L1 on every line and prints no luma summary. |
| Evaluation.EmptyDataset | codes/test.py:55-106 | An empty dataset prints no line. Its summary step fails on an unbound `need_HR`, divides by zero when `need_HR` is `True`, and prints nothing when it is `False`. |
| Evaluation.DatasetSummaryOrderIndependent | codes/test.py:104-133 | The same images in any order give the same summary. |
| Evaluation.StaleLumaL1AcrossDatasets | codes/test.py:87-93 | `l1_y_loss` survives into the next dataset: after one that recorded luma values, a grayscale dataset prints the last of them on every line. |
| Evaluation.EmptyAfterGroundTruthFails | codes/test.py:39-106 | `need_HR` carries into the next dataset of a run: after a non-empty dataset with ground truth, an empty dataset stops the run with a division by zero at its summary. |
| Evaluation.RunAllEmptyAfterGroundTruthFails | codes/test.py:39-106 | The same for the script itself, when the first dataset's images are all measurable and the first is a colour image. |
| Evaluation.MeasuredDatasetEvaluates | codes/test.py:55-133 | A dataset with ground truth measured by `MeasureSample`, whose images are all measurable and whose first image is a colour image, gets through from unbound globals. |
| Evaluation.RunAllRepeatsStaleLumaL1 | codes/test.py:39-93 | `l1_y_loss` carries into the next dataset of a run: after a dataset that recorded luma values, every line of a grayscale dataset prints the last of them. |
| Evaluation.TwoDatasets | codes/test.py:39-133 | A run over two datasets that get through is their two outcomes, the second evaluated from the globals the first left. |

## Left out

- The generator's forward pass, `feed_data` device placement, `tensor2img`, and the model factory in `codes/models/`. A `Sample` holds the `uint8` output and ground truth directly, and a missing ground truth is `MissingGroundTruth`.
- `util.psnr`, `util.ssim` and `bgr2ycbcr` are not defined here. They are parameters (`Metrics`), and nothing is assumed about their values.
- IEEE floating point: metrics are exact reals, so PSNR cannot be `+inf` and nothing rounds.
- Loss.L1Loss: on an empty crop `L1_loss` computes numpy's `0.0/0`, which yields NaN. Reals have no NaN, so the model reports `EmptyArray` and the run stops there. What `util.psnr` and `util.ssim`, called on the same empty crops first, do with empty arrays is not modelled.
- Loss.L1Loss: numpy broadcasting of size-1 axes is not modelled. Any two different shapes give `ShapeMismatch`.
- Loss.AbsDiffSum: `np.sum` of `uint8` accumulates in a wide unsigned integer. The model sums unbounded naturals, which agree for any image that fits in memory.
- Stats.Variance: the summary reports variances, not `np.std`, because square roots of reals are not modelled. A standard deviation is zero exactly when its variance is.
- On an error the result is only the error (`RunSamples`, `EvaluateWith`, `RunAllWith` and `RunAll` return a bare `Err`). The lines printed, images saved and summaries printed before it are not kept, although the script has already produced them: each earlier image has printed its line and saved its output, and each finished dataset has printed its summary.
- The scripted `print` formats, timing, directory creation, `save_img` file writing, `PrintLogger` and argparse/option parsing are left out. Reports carry the values a line prints and the path an image is saved to.
- Datasets are processed in the order given. The `sorted` over the option keys that creates that order is not modelled.
- A non-string `suffix` option is not modelled. `suffix` is `Option<string>`, and only `None` and `''` are falsy.
- Most dataset lemmas are stated for any `LoopConfig` whose measurement is `Faithful`, not for the script's configuration directly. `DatasetConfigFields`, `MeasureFnMeasuresSample` and `NamerForNames` show that the script's configuration is one of them. `RunAllLeadingEmptyDatasetFails`, `RunAllGrayAfterNoGroundTruthFails` and `RunAllEmptyAfterGroundTruthFails` apply them to `RunAll` itself.
- A zero border slices `img[0:-0]`, which is `img[0:0]`, so the crop is empty (`ZeroScaleMeasuresNothing`).

=== FILE: evaluation.dfy ===
/**
 * The evaluation loop of `codes/test.py`: for every test dataset, every image
 * is named, measured against its ground truth when the dataset has one, its
 * metrics recorded and its output path derived; then the dataset summary is
 * computed. The script's module-level names `need_HR` and `l1_y_loss` outlive
 * a single image and a single dataset, and are threaded through as `Globals`.
 */
module Evaluation {
  import opened Wrappers
  import opened Images
  import opened Loss
  import opened Paths
  import opened Records

  /**
   * The quality functions the loop calls without this model defining them:
   * `util.psnr`, `util.ssim` with its `multichannel` flag, and the luma
   * conversion `bgr2ycbcr(img, only_y=True)`.
   */
  datatype Metrics = Metrics(psnr: (Image, Image) -> real, ssim: (Image, Image, bool) -> real, toY: Image -> Image)

  /** One loader item after the forward pass: the input path, the uint8 network output and, if loaded, the uint8 ground truth. */
  datatype Sample = Sample(lrPath: string, sr: Image, hr: Option<Image>)

  /** The dataset options the loop reads: `name`, whether `dataroot_HR` is set, and `scale`. */
  datatype DatasetOpt = DatasetOpt(name: string, hasHR: bool, scale: int)

  /** A test dataset and its items in loader order. */
  datatype Dataset = Dataset(opt: DatasetOpt, samples: seq<Sample>)

  /** Why a run stops. */
  datatype RunError =
    | MissingGroundTruth(lrPath: string)           // `data['HR']` raises `KeyError` in `feed_data`
    | MetricFailed(lrPath: string, cause: LossError)
    | UnboundName(variable: string)                 // `NameError`
    | ZeroDivisionError                             // `sum([]) / len([])`

  /** The per-image console line. */
  datatype Line =
    | NameOnly(imgName: string)
    | ColourLine(imgName: string, psnr: real, ssim: real, psnrY: real, ssimY: real, l1: real, l1Y: real)
    | GrayLine(imgName: string, psnr: real, ssim: real, l1: real, l1Y: real)

  /** What the loop reports for one image: its line and the path the output is saved to. */
  datatype ImageReport = ImageReport(line: Line, savePath: string)

  /** The module-level names that survive from one image, and one dataset, to the next; `None` is unbound. */
  datatype Globals = Globals(needHR: Option<bool>, l1YLoss: Option<real>)

  const Unbound: Globals := Globals(None, None)

  /** The state of the per-image loop of one dataset. */
  datatype LoopState = LoopState(globals: Globals, results: TestResults, reports: seq<ImageReport>)

  /** The image's ground truth is loaded and has three channels. */
  predicate IsColour(s: Sample) {
    s.hr.Some? && s.hr.value.channels == 3
  }

  // ---------------------------------------------------------------- one image

  /**
   * `codes/test.py` lines 67-88: both images are cropped by the dataset scale,
   * PSNR, SSIM (`multichannel=True`) and L1 are taken on the crops, and, when
   * the ground truth has three channels, PSNR, SSIM (`multichannel=False`) and
   * L1 are taken again on the luma channel of the crops.
   */
  function Measure(m: Metrics, border: int, sr: Image, gt: Image): (r: Result<MetricRecord, LossError>)
    ensures Shape(Crop(sr, border)) != Shape(Crop(gt, border)) ==> r == Err(ShapeMismatch)
    ensures Shape(Crop(sr, border)) == Shape(Crop(gt, border)) && Size(Crop(sr, border)) == 0 ==> r == Err(EmptyArray)
    ensures r.Ok? <==>
              && Shape(Crop(sr, border)) == Shape(Crop(gt, border)) && Size(Crop(sr, border)) > 0
              && (gt.channels == 3 ==>
                    var ysr, ygt := m.toY(Crop(sr, border)), m.toY(Crop(gt, border));
                    Shape(ysr) == Shape(ygt) && Size(ysr) > 0)
    ensures r.Ok? ==>
              var csr, cgt := Crop(sr, border), Crop(gt, border);
              && r.value.psnr == m.psnr(csr, cgt) && r.value.ssim == m.ssim(csr, cgt, true)
              && Ok(r.value.l1) == L1Loss(csr, cgt)
    ensures r.Ok? ==> (r.value.luma.Some? <==> gt.channels == 3)
    ensures r.Ok? && r.value.luma.Some? ==>
              var ysr, ygt := m.toY(Crop(sr, border)), m.toY(Crop(gt, border));
              var y := r.value.luma.value;
              && y.psnrY == m.psnr(ysr, ygt) && y.ssimY == m.ssim(ysr, ygt, false)
              && Ok(y.l1Y) == L1Loss(ysr, ygt)
    ensures r.Ok? ==> 0.0 <= r.value.l1 <= 1.0
    ensures r.Ok? ==> (r.value.l1 == 0.0 <==> Crop(sr, border) == Crop(gt, border))
    ensures r.Ok? && r.value.luma.Some? ==> 0.0 <= r.value.luma.value.l1Y <= 1.0
  {
    var csr := Crop(sr, border);
    var cgt := Crop(gt, border);
    L1ZeroIffIdentical(csr, cgt);
    var l1 :- L1Loss(csr, cgt);
    var psnr := m.psnr(csr, cgt);
    var ssim := m.ssim(csr, cgt, true);
    if gt.channels == 3 then
      var ysr := m.toY(csr);
      var ygt := m.toY(cgt);
      var l1Y :- L1Loss(ysr, ygt);
      Ok(MetricRecord(psnr, ssim, l1, Some(LumaRecord(m.psnr(ysr, ygt), m.ssim(ysr, ygt, false), l1Y))))
    else
      Ok(MetricRecord(psnr, ssim, l1, None))
  }

  /** A zero scale crops `img[0:0, 0:0, :]`, which is empty, so no image can be measured. */
  lemma ZeroScaleMeasuresNothing(m: Metrics, sr: Image, gt: Image)
    ensures Measure(m, 0, sr, gt).Err?
  {
  }

  /**
   * A grayscale pair of one shape is always measured when the border leaves
   * something of it: the crops agree in shape and are not empty.
   */
  lemma GrayPairMeasurable(m: Metrics, border: int, sr: Image, gt: Image)
    requires border >= 1 && Shape(sr) == Shape(gt) && gt.channels != 3
    requires sr.height > 2 * border && sr.width > 2 * border && sr.channels > 0
    ensures Measure(m, border, sr, gt).Ok?
    ensures Measure(m, border, sr, gt).value.luma.None?
    ensures Ok(Measure(m, border, sr, gt).value.l1) == L1Loss(Crop(sr, border), Crop(gt, border))
  {
    CropPositive(sr, border);
    CropPositive(gt, border);
    var c := Crop(sr, border);
    assert c.height > 0 && c.width > 0 && c.channels > 0;
    assert c.height * c.width > 0;
    assert Size(c) == (c.height * c.width) * c.channels;
  }

  /**
   * The measurement of one loaded image: its ground truth (`data['HR']`) must
   * have been loaded, and the crops must be measurable.
   */
  function MeasureSample(m: Metrics, border: int, s: Sample): (r: Result<MetricRecord, RunError>)
    ensures s.hr.None? ==> r == Err(MissingGroundTruth(s.lrPath))
    ensures s.hr.Some? ==> (r.Ok? <==> Measure(m, border, s.sr, s.hr.value).Ok?)
    ensures s.hr.Some? && r.Ok? ==> r.value == Measure(m, border, s.sr, s.hr.value).value
    ensures r.Ok? ==> (r.value.luma.Some? <==> IsColour(s))
    ensures r.Ok? ==> 0.0 <= r.value.l1 <= 1.0
    ensures r.Ok? && r.value.luma.Some? ==> 0.0 <= r.value.luma.value.l1Y <= 1.0
  {
    if s.hr.None? then Err(MissingGroundTruth(s.lrPath))
    else
      match Measure(m, border, s.sr, s.hr.value)
      case Ok(rec) => Ok(rec)
      case Err(e) => Err(MetricFailed(s.lrPath, e))
  }

  /** A per-image measurement; the loop below is stated for any of them. */
  type Measurer = Sample -> Result<MetricRecord, RunError>

  function MeasureFn(m: Metrics, border: int): Measurer {
    s => MeasureSample(m, border, s)
  }

  /** What the loop relies on from a measurement: luma metrics exactly for colour images, and L1 values in [0, 1]. */
  ghost predicate Faithful(f: Measurer) {
    forall s :: f(s).Ok? ==>
      && (f(s).value.luma.Some? <==> IsColour(s))
      && 0.0 <= f(s).value.l1 <= 1.0
      && (f(s).value.luma.Some? ==> 0.0 <= f(s).value.luma.value.l1Y <= 1.0)
  }

  lemma MeasureSampleFaithful(m: Metrics, border: int)
    ensures Faithful(MeasureFn(m, border))
  {
    forall s | MeasureFn(m, border)(s).Ok?
      ensures MeasureFn(m, border)(s).value.luma.Some? <==> IsColour(s)
    {
      assert MeasureFn(m, border)(s) == MeasureSample(m, border, s);
    }
  }

  /** Names an image from its input path: its name and the path its output is saved to. */
  type Namer = string -> (string, string)

  /** `img_name` from the input path, and `save_img_path` under the dataset directory. */
  function NamerFor(dir: string, suffix: Option<string>): Namer {
    p => (ImageName(p), SavePath(dir, ImageName(p), suffix))
  }

  /** What the per-image loop of one dataset is run with. */
  datatype LoopConfig = LoopConfig(measure: Measurer, namer: Namer, hasHR: bool)

  /** Without ground truth nothing is measured; with it, the image must be measurable. */
  predicate Measurable(cfg: LoopConfig, s: Sample) {
    !cfg.hasHR || cfg.measure(s).Ok?
  }

  /** The last value of the `Y_L1` list is what `l1_y_loss` holds. */
  predicate Tracks(g: Globals, res: TestResults) {
    |res.yL1| > 0 ==> g.l1YLoss == Some(res.yL1[|res.yL1| - 1])
  }

  /** The globals, lists and console line after one image. */
  datatype Processed = Processed(globals: Globals, results: TestResults, line: Line)

  /**
   * The loop body up to its `print`, for one image named `name`: with ground
   * truth it is measured, recorded and printed; a grayscale image prints the
   * module-level `l1_y_loss`, which holds whatever the most recent colour image
   * left there, or is unbound if no colour image has been seen yet.
   */
  function Process(cfg: LoopConfig, g: Globals, res: TestResults, s: Sample, name: string)
    : (r: Result<Processed, RunError>)
    ensures r.Ok? <==> Measurable(cfg, s) && (cfg.hasHR ==> cfg.measure(s).value.luma.Some? || g.l1YLoss.Some?)
    ensures r.Ok? ==> r.value.globals.needHR == Some(cfg.hasHR) && r.value.line.imgName == name
    ensures r.Ok? && !cfg.hasHR ==> r.value == Processed(g.(needHR := Some(false)), res, NameOnly(name))
    ensures r.Ok? && cfg.hasHR ==> r.value.results == Record(res, cfg.measure(s).value) && r.value.globals.l1YLoss.Some?
    ensures r.Ok? && cfg.hasHR && cfg.measure(s).value.luma.None? ==>
              && r.value.globals.l1YLoss == g.l1YLoss
              && r.value.line.GrayLine? && r.value.line.l1Y == g.l1YLoss.value
    ensures r.Ok? && Tracks(g, res) ==> Tracks(r.value.globals, r.value.results)
    ensures r.Ok? ==> |r.value.results.yL1| >= |res.yL1|
    ensures r.Ok? && |r.value.results.yL1| == |res.yL1| ==> r.value.globals.l1YLoss == g.l1YLoss
  {
    var g' := g.(needHR := Some(cfg.hasHR));
    if !cfg.hasHR then
      Ok(Processed(g', res, NameOnly(name)))
    else
      var rec :- cfg.measure(s);
      var results := Record(res, rec);
      match rec.luma
      case Some(y) =>
        Ok(Processed(g'.(l1YLoss := Some(y.l1Y)), results,
                     ColourLine(name, rec.psnr, rec.ssim, y.psnrY, y.ssimY, rec.l1, y.l1Y)))
      case None =>
        if g'.l1YLoss.None? then Err(UnboundName("l1_y_loss"))
        else Ok(Processed(g', results, GrayLine(name, rec.psnr, rec.ssim, rec.l1, g'.l1YLoss.value)))
  }

  /** After a colour image, a grayscale image's line repeats the last value of the `Y_L1` list. */
  lemma GrayLineRepeatsLastLumaL1(cfg: LoopConfig, g: Globals, res: TestResults, s: Sample, name: string)
    requires cfg.hasHR && Faithful(cfg.measure) && Tracks(g, res) && |res.yL1| > 0
    requires cfg.measure(s).Ok? && !IsColour(s)
    ensures Process(cfg, g, res, s, name).Ok?
    ensures var line := Process(cfg, g, res, s, name).value.line;
            line.GrayLine? && line.l1Y == res.yL1[|res.yL1| - 1]
  {
  }

  /** One iteration of `for data in test_loader`: process the image, then report its line and save path. */
  function Step(cfg: LoopConfig, st: LoopState, s: Sample): (r: Result<LoopState, RunError>)
    ensures r.Ok? <==> Process(cfg, st.globals, st.results, s, cfg.namer(s.lrPath).0).Ok?
    ensures r.Ok? ==>
              var p := Process(cfg, st.globals, st.results, s, cfg.namer(s.lrPath).0).value;
              && r.value.globals == p.globals && r.value.results == p.results
              && r.value.reports == st.reports + [ImageReport(p.line, cfg.namer(s.lrPath).1)]
  {
    var (name, path) := cfg.namer(s.lrPath);
    var p :- Process(cfg, st.globals, st.results, s, name);
    Ok(LoopState(p.globals, p.results, st.reports + [ImageReport(p.line, path)]))
  }

  // ---------------------------------------------------------------- one dataset

  /** The number of images whose ground truth is a loaded three-channel image. */
  function ColourCount(samples: seq<Sample>): (n: nat)
    ensures n <= |samples|
    decreases |samples|
  {
    if |samples| == 0 then 0 else (if IsColour(samples[0]) then 1 else 0) + ColourCount(samples[1..])
  }

  /** The loop `for data in test_loader` over a dataset's images, from the given state. */
  function RunSamples(cfg: LoopConfig, st: LoopState, samples: seq<Sample>): (r: Result<LoopState, RunError>)
    ensures r.Ok? ==> |r.value.reports| == |st.reports| + |samples| && r.value.reports[..|st.reports|] == st.reports
    ensures r.Ok? && WellFormed(st.results) ==> WellFormed(r.value.results)
    ensures r.Ok? ==> |r.value.results.psnr| == |st.results.psnr| + (if cfg.hasHR then |samples| else 0)
    ensures r.Ok? && Faithful(cfg.measure) ==>
              |r.value.results.psnrY| == |st.results.psnrY| + (if cfg.hasHR then ColourCount(samples) else 0)
    ensures r.Ok? ==> r.value.globals.needHR == if |samples| > 0 then Some(cfg.hasHR) else st.globals.needHR
    ensures r.Ok? && Tracks(st.globals, st.results) ==> Tracks(r.value.globals, r.value.results)
    ensures r.Ok? ==> |r.value.results.yL1| >= |st.results.yL1|
    ensures r.Ok? && |r.value.results.yL1| == |st.results.yL1| ==> r.value.globals.l1YLoss == st.globals.l1YLoss
    decreases |samples|
  {
    if |samples| == 0 then Ok(st)
    else
      var next :- Step(cfg, st, samples[0]);
      RunSamples(cfg, next, samples[1..])
  }

  /**
   * The loop gets through a dataset exactly when every image can be processed
   * and, with ground truth, the first image has luma metrics or an earlier
   * colour image (possibly of an earlier dataset) left `l1_y_loss` bound.
   */
  lemma {:induction false} RunSamplesOkIff(cfg: LoopConfig, st: LoopState, samples: seq<Sample>)
    ensures RunSamples(cfg, st, samples).Ok? <==>
              && (forall i :: 0 <= i < |samples| ==> Measurable(cfg, samples[i]))
              && (cfg.hasHR && |samples| > 0 && st.globals.l1YLoss.None? ==>
                    cfg.measure(samples[0]).Ok? && cfg.measure(samples[0]).value.luma.Some?)
    decreases |samples|
  {
    if |samples| > 0 {
      var rest := samples[1..];
      assert forall i :: 1 <= i < |samples| ==> samples[i] == rest[i - 1];
      var step := Step(cfg, st, samples[0]);
      if step.Ok? {
        RunSamplesOkIff(cfg, step.value, rest);
      }
    }
  }

  /** The per-image reports name every image and give its save path, in loader order. */
  lemma {:induction false} RunSamplesReports(cfg: LoopConfig, st: LoopState, samples: seq<Sample>)
    requires RunSamples(cfg, st, samples).Ok?
    ensures var out := RunSamples(cfg, st, samples).value.reports;
            forall i :: 0 <= i < |samples| ==>
              && out[|st.reports| + i].savePath == cfg.namer(samples[i].lrPath).1
              && out[|st.reports| + i].line.imgName == cfg.namer(samples[i].lrPath).0
              && (!cfg.hasHR ==> out[|st.reports| + i].line == NameOnly(cfg.namer(samples[i].lrPath).0))
    decreases |samples|
  {
    if |samples| > 0 {
      var next := Step(cfg, st, samples[0]).value;
      var rest := samples[1..];
      RunSamplesReports(cfg, next, rest);
      var out := RunSamples(cfg, st, samples).value.reports;
      assert out[..|next.reports|] == next.reports;
      forall i | 0 <= i < |samples|
        ensures out[|st.reports| + i].savePath == cfg.namer(samples[i].lrPath).1
        ensures out[|st.reports| + i].line.imgName == cfg.namer(samples[i].lrPath).0
        ensures !cfg.hasHR ==> out[|st.reports| + i].line == NameOnly(cfg.namer(samples[i].lrPath).0)
      {
        if i == 0 {
          assert out[|st.reports|] == out[..|next.reports|][|st.reports|];
        } else {
          assert samples[i] == rest[i - 1];
          assert |st.reports| + i == |next.reports| + (i - 1);
        }
      }
    }
  }

  function OkOf(f: Measurer): Sample -> Option<MetricRecord> {
    s => if f(s).Ok? then Some(f(s).value) else None
  }

  /** The records a sequence of images contributes, in order. */
  function Recorded(f: Measurer, samples: seq<Sample>): seq<MetricRecord> {
    Somes(Project(samples, OkOf(f)))
  }

  /** Unfolding `Recorded` by one measurable image. */
  lemma RecordedCons(f: Measurer, samples: seq<Sample>)
    requires |samples| > 0 && f(samples[0]).Ok?
    ensures Recorded(f, samples) == [f(samples[0]).value] + Recorded(f, samples[1..])
  {
    var x := OkOf(f)(samples[0]);
    assert samples == [samples[0]] + samples[1..];
    ProjectConcat([samples[0]], samples[1..], OkOf(f));
    assert Project([samples[0]], OkOf(f)) == [x];
    SomesConcat([x], Project(samples[1..], OkOf(f)));
    assert Somes([x]) == [f(samples[0]).value] by {
      assert [x][1..] == [];
    }
  }

  /** Without ground truth the loop leaves the six lists as they were. */
  lemma {:induction false} RunSamplesKeepsResults(cfg: LoopConfig, st: LoopState, samples: seq<Sample>)
    requires !cfg.hasHR && RunSamples(cfg, st, samples).Ok?
    ensures RunSamples(cfg, st, samples).value.results == st.results
    decreases |samples|
  {
    if |samples| > 0 {
      RunSamplesKeepsResults(cfg, Step(cfg, st, samples[0]).value, samples[1..]);
    }
  }

  /**
   * With ground truth the six lists the loop leaves behind are the columns of
   * the records of the images, appended in loader order after what was there before.
   */
  lemma {:induction false} RunSamplesRecords(cfg: LoopConfig, st: LoopState, samples: seq<Sample>, prev: seq<MetricRecord>)
    requires cfg.hasHR && st.results == Columns(prev)
    requires RunSamples(cfg, st, samples).Ok?
    ensures RunSamples(cfg, st, samples).value.results == Columns(prev + Recorded(cfg.measure, samples))
    decreases |samples|
  {
    if |samples| == 0 {
      assert prev + [] == prev;
    } else {
      var s := samples[0];
      var rec := cfg.measure(s).value;
      var next := Step(cfg, st, s).value;
      StepRecords(cfg, st, s, prev);
      RunSamplesRecords(cfg, next, samples[1..], prev + [rec]);
      RecordedCons(cfg.measure, samples);
      AppendAssociates(prev, rec, Recorded(cfg.measure, samples[1..]), Recorded(cfg.measure, samples));
    }
  }

  lemma AppendAssociates<T>(prev: seq<T>, x: T, rest: seq<T>, all: seq<T>)
    requires all == [x] + rest
    ensures prev + [x] + rest == prev + all
  {
  }

  /** One image of a dataset with ground truth adds its record to the columns. */
  lemma StepRecords(cfg: LoopConfig, st: LoopState, s: Sample, prev: seq<MetricRecord>)
    requires cfg.hasHR && st.results == Columns(prev)
    requires Step(cfg, st, s).Ok?
    ensures Step(cfg, st, s).value.results == Columns(prev + [cfg.measure(s).value])
  {
    RecordExtendsColumns(prev, cfg.measure(s).value);
  }

  /** When every image is measurable, each one contributes its record, in order. */
  lemma {:induction false} RecordedAll(f: Measurer, samples: seq<Sample>)
    requires forall i :: 0 <= i < |samples| ==> f(samples[i]).Ok?
    ensures |Recorded(f, samples)| == |samples|
    ensures forall i :: 0 <= i < |samples| ==> Recorded(f, samples)[i] == f(samples[i]).value
    decreases |samples|
  {
    if |samples| > 0 {
      var rest := samples[1..];
      assert forall i :: 1 <= i < |samples| ==> samples[i] == rest[i - 1];
      RecordedAll(f, rest);
      RecordedCons(f, samples);
    }
  }

  /** Among measurable images, a record with luma metrics comes exactly from a colour image. */
  lemma RecordedLumas(f: Measurer, samples: seq<Sample>)
    requires Faithful(f)
    requires forall i :: 0 <= i < |samples| ==> f(samples[i]).Ok?
    ensures var rs := Recorded(f, samples);
            (exists i :: 0 <= i < |rs| && rs[i].luma.Some?) <==> (exists i :: 0 <= i < |samples| && IsColour(samples[i]))
  {
    RecordedAll(f, samples);
    var rs := Recorded(f, samples);
    if exists i :: 0 <= i < |samples| && IsColour(samples[i]) {
      var i :| 0 <= i < |samples| && IsColour(samples[i]);
      assert rs[i].luma.Some?;
    }
  }

  /** A grayscale image's line printing `l1Y` as its luma L1. */
  predicate GrayWith(line: Line, l1Y: real) {
    line.GrayLine? && line.l1Y == l1Y
  }

  /** Grayscale images after `l1_y_loss` was bound all print that same value, and leave it unchanged. */
  lemma {:induction false} GrayRunKeepsStale(cfg: LoopConfig, st: LoopState, samples: seq<Sample>, stale: real)
    requires cfg.hasHR && Faithful(cfg.measure) && st.globals.l1YLoss == Some(stale)
    requires forall i :: 0 <= i < |samples| ==> cfg.measure(samples[i]).Ok? && !IsColour(samples[i])
    ensures RunSamples(cfg, st, samples).Ok?
    ensures var out := RunSamples(cfg, st, samples).value;
            && out.globals.l1YLoss == Some(stale)
            && forall k :: |st.reports| <= k < |out.reports| ==> GrayWith(out.reports[k].line, stale)
    decreases |samples|
  {
    if |samples| > 0 {
      var s := samples[0];
      var rest := samples[1..];
      assert forall i :: 1 <= i < |samples| ==> samples[i] == rest[i - 1];
      assert cfg.measure(s).value.luma.None?;
      var step := Step(cfg, st, s);
      assert step.Ok?;
      var next := step.value;
      assert next.globals.l1YLoss == Some(stale);
      assert GrayWith(next.reports[|st.reports|].line, stale);
      GrayRunKeepsStale(cfg, next, rest, stale);
      var out := RunSamples(cfg, st, samples).value.reports;
      assert out[..|next.reports|] == next.reports;
      assert out[|st.reports|] == out[..|next.reports|][|st.reports|];
    }
  }

  // ---------------------------------------------------------------- summary and datasets

  /**
   * The `if need_HR:` block after the loop: the summary is printed only if the
   * module-level `need_HR` is true; it is unbound if no image of any dataset has
   * been processed yet.
   */
  function ReportSummary(needHR: Option<bool>, res: TestResults): (r: Result<Option<Summary>, RunError>)
    requires WellFormed(res)
    ensures needHR.None? ==> r == Err(UnboundName("need_HR"))
    ensures needHR == Some(false) ==> r == Ok(None)
    ensures needHR == Some(true) ==> (r.Ok? <==> |res.psnr| > 0)
    ensures needHR == Some(true) && r.Ok? ==> r.value == Some(Summarize(res).value)
  {
    match needHR
    case None => Err(UnboundName("need_HR"))
    case Some(false) => Ok(None)
    case Some(true) =>
      match Summarize(res)
      case Err(_) => Err(ZeroDivisionError)
      case Ok(s) => Ok(Some(s))
  }

  /** What one dataset leaves behind. */
  datatype DatasetOutcome = DatasetOutcome(reports: seq<ImageReport>, results: TestResults, summary: Option<Summary>)

  /** One dataset: fresh `test_results` lists, the per-image loop, then the summary. */
  function EvaluateWith(cfg: LoopConfig, g: Globals, samples: seq<Sample>): (r: Result<(DatasetOutcome, Globals), RunError>)
    ensures r.Ok? ==> |r.value.0.reports| == |samples|
    ensures r.Ok? ==> WellFormed(r.value.0.results)
    ensures r.Ok? ==> r.value.1.needHR == if |samples| > 0 then Some(cfg.hasHR) else g.needHR
    ensures r.Ok? ==> Tracks(r.value.1, r.value.0.results)
    ensures r.Ok? && |r.value.0.results.yL1| == 0 ==> r.value.1.l1YLoss == g.l1YLoss
  {
    var st :- RunSamples(cfg, LoopState(g, NoResults, []), samples);
    var summary :- ReportSummary(st.globals.needHR, st.results);
    Ok((DatasetOutcome(st.reports, st.results, summary), st.globals))
  }

  /**
   * How a dataset's loop is configured from its options: measured at its
   * `scale` (`crop_border`), named under `results_root/name` (`dataset_dir`),
   * and compared against ground truth when `dataroot_HR` is set (`need_HR`).
   */
  function DatasetConfig(m: Metrics, resultsRoot: string, suffix: Option<string>): DatasetOpt -> LoopConfig {
    (opt: DatasetOpt) => LoopConfig(MeasureFn(m, opt.scale), NamerFor(DatasetDir(resultsRoot, opt.name), suffix), opt.hasHR)
  }

  /** The configuration of a dataset measures at its scale, names under its directory and has ground truth exactly when the dataset does. */
  lemma DatasetConfigFields(m: Metrics, resultsRoot: string, suffix: Option<string>, opt: DatasetOpt)
    ensures DatasetConfig(m, resultsRoot, suffix)(opt).hasHR <==> opt.hasHR
    ensures DatasetConfig(m, resultsRoot, suffix)(opt).measure == MeasureFn(m, opt.scale)
    ensures DatasetConfig(m, resultsRoot, suffix)(opt).namer == NamerFor(DatasetDir(resultsRoot, opt.name), suffix)
  {
    // The solver proves each direction alone but runs out of resource on the equivalence at once.
    if opt.hasHR {
      GroundTruthConfigured(m, resultsRoot, suffix, opt);
    } else {
      NoGroundTruthConfigured(m, resultsRoot, suffix, opt);
    }
  }

  lemma GroundTruthConfigured(m: Metrics, resultsRoot: string, suffix: Option<string>, opt: DatasetOpt)
    requires opt.hasHR
    ensures DatasetConfig(m, resultsRoot, suffix)(opt).hasHR
  {
  }

  lemma NoGroundTruthConfigured(m: Metrics, resultsRoot: string, suffix: Option<string>, opt: DatasetOpt)
    requires !opt.hasHR
    ensures !DatasetConfig(m, resultsRoot, suffix)(opt).hasHR
  {
  }

  /** A dataset's images are measured with `MeasureSample` at the dataset scale, so the loop lemmas below apply to them. */
  lemma MeasureFnMeasuresSample(m: Metrics, border: int, s: Sample)
    ensures MeasureFn(m, border)(s) == MeasureSample(m, border, s)
    ensures Faithful(MeasureFn(m, border))
  {
    MeasureSampleFaithful(m, border);
  }

  /** An image is named by `ImageName` and saved under the directory the namer was made for. */
  lemma NamerForNames(dir: string, suffix: Option<string>, p: string)
    ensures NamerFor(dir, suffix)(p).0 == ImageName(p)
    ensures NamerFor(dir, suffix)(p).1 == SavePath(dir, ImageName(p), suffix)
  {
  }

  /** The datasets in order, each configured by `configOf` and starting from the globals the previous one left. */
  function RunAllWith(configOf: DatasetOpt -> LoopConfig, g: Globals, datasets: seq<Dataset>)
    : (r: Result<(seq<DatasetOutcome>, Globals), RunError>)
    ensures r.Ok? ==> |r.value.0| == |datasets|
    ensures r.Ok? ==> forall k :: 0 <= k < |datasets| ==> |r.value.0[k].reports| == |datasets[k].samples|
    ensures r.Ok? ==> forall k :: 0 <= k < |datasets| ==> WellFormed(r.value.0[k].results)
    ensures r.Ok? && (forall k :: 0 <= k < |datasets| ==> |datasets[k].samples| == 0) ==> r.value.1.needHR == g.needHR
    decreases |datasets|
  {
    if |datasets| == 0 then Ok(([], g))
    else
      var first :- EvaluateWith(configOf(datasets[0].opt), g, datasets[0].samples);
      var rest :- RunAllWith(configOf, first.1, datasets[1..]);
      OutcomesCons(datasets, first.0, rest.0);
      Ok(([first.0] + rest.0, rest.1))
  }

  /** One outcome per dataset, with one report per image and well formed lists, extends by a first dataset. */
  lemma OutcomesCons(datasets: seq<Dataset>, first: DatasetOutcome, rest: seq<DatasetOutcome>)
    requires |datasets| > 0 && |rest| == |datasets| - 1
    requires |first.reports| == |datasets[0].samples| && WellFormed(first.results)
    requires forall k :: 0 <= k < |rest| ==> |rest[k].reports| == |datasets[1..][k].samples|
    requires forall k :: 0 <= k < |rest| ==> WellFormed(rest[k].results)
    ensures forall k :: 0 <= k < |datasets| ==> |([first] + rest)[k].reports| == |datasets[k].samples|
    ensures forall k :: 0 <= k < |datasets| ==> WellFormed(([first] + rest)[k].results)
  {
    forall k | 1 <= k < |datasets|
      ensures |([first] + rest)[k].reports| == |datasets[k].samples|
      ensures WellFormed(([first] + rest)[k].results)
    {
      assert ([first] + rest)[k] == rest[k - 1];
      assert datasets[1..][k - 1] == datasets[k];
    }
  }

  /**
   * The whole script after loading (`codes/test.py` lines 39-133): every test
   * dataset, in the sorted order the loaders were created in, starting with
   * `need_HR` and `l1_y_loss` unbound; `resultsRoot` is `opt['path']['results_root']`.
   */
  function RunAll(m: Metrics, resultsRoot: string, suffix: Option<string>, datasets: seq<Dataset>)
    : (r: Result<(seq<DatasetOutcome>, Globals), RunError>)
    ensures r.Ok? ==> |r.value.0| == |datasets|
    ensures r.Ok? ==> forall k :: 0 <= k < |datasets| ==> |r.value.0[k].reports| == |datasets[k].samples|
    ensures r.Ok? ==> forall k :: 0 <= k < |datasets| ==> WellFormed(r.value.0[k].results)
  {
    RunAllWith(DatasetConfig(m, resultsRoot, suffix), Unbound, datasets)
  }

  /** Before any image, `need_HR` is unbound: a script whose first datasets are all empty fails at the first summary. */
  lemma LeadingEmptyDatasetFails(configOf: DatasetOpt -> LoopConfig, datasets: seq<Dataset>)
    requires |datasets| > 0 && |datasets[0].samples| == 0
    ensures RunAllWith(configOf, Unbound, datasets) == Err(UnboundName("need_HR"))
  {
    EmptyDataset(configOf(datasets[0].opt), Unbound);
  }

  /** The script stops at the first summary when its first dataset is empty. */
  lemma RunAllLeadingEmptyDatasetFails(m: Metrics, resultsRoot: string, suffix: Option<string>, datasets: seq<Dataset>)
    requires |datasets| > 0 && |datasets[0].samples| == 0
    ensures RunAll(m, resultsRoot, suffix, datasets) == Err(UnboundName("need_HR"))
  {
    LeadingEmptyDatasetFails(DatasetConfig(m, resultsRoot, suffix), datasets);
  }

  /**
   * Only a colour image binds `l1_y_loss`: when the first dataset recorded no
   * luma value, a second dataset whose first image is grayscale stops the run.
   */
  lemma GrayAfterNoLumaFails(configOf: DatasetOpt -> LoopConfig, g: Globals, datasets: seq<Dataset>)
    requires |datasets| >= 2 && g.l1YLoss.None?
    requires var first := EvaluateWith(configOf(datasets[0].opt), g, datasets[0].samples);
             first.Ok? && |first.value.0.results.yL1| == 0
    requires var cfg := configOf(datasets[1].opt);
             && cfg.hasHR && Faithful(cfg.measure) && |datasets[1].samples| > 0
             && cfg.measure(datasets[1].samples[0]).Ok? && !IsColour(datasets[1].samples[0])
    ensures RunAllWith(configOf, g, datasets) == Err(UnboundName("l1_y_loss"))
  {
    var first := EvaluateWith(configOf(datasets[0].opt), g, datasets[0].samples).value;
    assert first.1.l1YLoss.None?;
    var rest := datasets[1..];
    assert rest[0] == datasets[1];
    GrayFirstImageFails(configOf(rest[0].opt), first.1, rest[0].samples);
    assert RunAllWith(configOf, first.1, rest) == Err(UnboundName("l1_y_loss"));
  }

  /**
   * The script itself: a first dataset without ground truth binds `need_HR` but
   * not `l1_y_loss`, so a second dataset whose first image is a measurable
   * grayscale pair stops on the unbound `l1_y_loss`.
   */
  lemma RunAllGrayAfterNoGroundTruthFails(m: Metrics, resultsRoot: string, suffix: Option<string>, datasets: seq<Dataset>)
    requires |datasets| >= 2
    requires !datasets[0].opt.hasHR && |datasets[0].samples| > 0
    requires datasets[1].opt.hasHR && |datasets[1].samples| > 0
    requires var s, c := datasets[1].samples[0], datasets[1].opt.scale;
             && s.hr.Some? && c >= 1 && Shape(s.sr) == Shape(s.hr.value) && s.hr.value.channels != 3
             && s.sr.height > 2 * c && s.sr.width > 2 * c && s.sr.channels > 0
    ensures RunAll(m, resultsRoot, suffix, datasets) == Err(UnboundName("l1_y_loss"))
  {
    var configOf := DatasetConfig(m, resultsRoot, suffix);
    var s, c := datasets[1].samples[0], datasets[1].opt.scale;
    DatasetConfigFields(m, resultsRoot, suffix, datasets[0].opt);
    DatasetConfigFields(m, resultsRoot, suffix, datasets[1].opt);
    DatasetWithoutGroundTruth(configOf(datasets[0].opt), Unbound, datasets[0].samples);
    GrayPairMeasurable(m, c, s.sr, s.hr.value);
    MeasureFnMeasuresSample(m, c, s);
    GrayAfterNoLumaFails(configOf, Unbound, datasets);
  }

  /**
   * `need_HR` survives into the next dataset: after a dataset with ground truth
   * and at least one image, an empty dataset reaches the summary with `need_HR`
   * true and divides by an empty list.
   */
  lemma EmptyAfterGroundTruthFails(configOf: DatasetOpt -> LoopConfig, g: Globals, datasets: seq<Dataset>)
    requires |datasets| >= 2 && |datasets[1].samples| == 0
    requires configOf(datasets[0].opt).hasHR && |datasets[0].samples| > 0
    requires EvaluateWith(configOf(datasets[0].opt), g, datasets[0].samples).Ok?
    ensures RunAllWith(configOf, g, datasets) == Err(ZeroDivisionError)
  {
    var first := EvaluateWith(configOf(datasets[0].opt), g, datasets[0].samples).value;
    var rest := datasets[1..];
    assert rest[0] == datasets[1];
    EmptyDataset(configOf(rest[0].opt), first.1);
    RunAllWithFirst(configOf, first.1, rest);
    RunAllWithFirst(configOf, g, datasets);
  }

  /** The first dataset of a run is evaluated from the run's globals, and the rest from the globals it leaves. */
  lemma RunAllWithFirst(configOf: DatasetOpt -> LoopConfig, g: Globals, datasets: seq<Dataset>)
    requires |datasets| > 0
    ensures var first := EvaluateWith(configOf(datasets[0].opt), g, datasets[0].samples);
            && (first.Err? ==> RunAllWith(configOf, g, datasets) == Err(first.error))
            && (first.Ok? ==>
                  var rest := RunAllWith(configOf, first.value.1, datasets[1..]);
                  && (rest.Err? ==> RunAllWith(configOf, g, datasets) == Err(rest.error))
                  && (rest.Ok? ==> RunAllWith(configOf, g, datasets) == Ok(([first.value.0] + rest.value.0, rest.value.1))))
  {
  }

  /**
   * The script itself: a first dataset with ground truth whose images are all
   * measurable and whose first image is a colour image, followed by an empty
   * dataset, stops at the second summary on a division by zero.
   */
  lemma RunAllEmptyAfterGroundTruthFails(m: Metrics, resultsRoot: string, suffix: Option<string>, datasets: seq<Dataset>)
    requires |datasets| >= 2 && |datasets[1].samples| == 0
    requires datasets[0].opt.hasHR && |datasets[0].samples| > 0 && IsColour(datasets[0].samples[0])
    requires AllMeasurable(m, datasets[0].opt.scale, datasets[0].samples)
    ensures RunAll(m, resultsRoot, suffix, datasets) == Err(ZeroDivisionError)
  {
    var configOf := DatasetConfig(m, resultsRoot, suffix);
    DatasetConfigFields(m, resultsRoot, suffix, datasets[0].opt);
    MeasuredDatasetEvaluates(m, configOf(datasets[0].opt), datasets[0].opt.scale, datasets[0].samples);
    EmptyAfterGroundTruthFails(configOf, Unbound, datasets);
  }

  /** Every image of a dataset has ground truth and crops that can be measured. */
  predicate AllMeasurable(m: Metrics, border: int, samples: seq<Sample>) {
    forall i :: 0 <= i < |samples| ==> MeasureSample(m, border, samples[i]).Ok?
  }

  /** A dataset with ground truth measured by `MeasureSample`, whose images are all measurable and whose first image is a colour image, gets through from unbound globals. */
  lemma MeasuredDatasetEvaluates(m: Metrics, cfg: LoopConfig, border: int, samples: seq<Sample>)
    requires cfg.hasHR && cfg.measure == MeasureFn(m, border)
    requires |samples| > 0 && IsColour(samples[0])
    requires AllMeasurable(m, border, samples)
    ensures EvaluateWith(cfg, Unbound, samples).Ok?
  {
    forall i | 0 <= i < |samples|
      ensures cfg.measure(samples[i]).Ok?
    {
      MeasureFnMeasuresSample(m, border, samples[i]);
    }
    MeasureSampleFaithful(m, border);
    DatasetWithGroundTruth(cfg, Unbound, samples);
  }

  /**
   * `l1_y_loss` survives into the next dataset of the same run: after a dataset
   * that recorded luma values, every line of a grayscale dataset prints the last
   * of them.
   */
  lemma RunAllRepeatsStaleLumaL1(configOf: DatasetOpt -> LoopConfig, g: Globals, datasets: seq<Dataset>)
    requires |datasets| == 2
    requires var first := EvaluateWith(configOf(datasets[0].opt), g, datasets[0].samples);
             first.Ok? && |first.value.0.results.yL1| > 0
    requires var cfg := configOf(datasets[1].opt);
             && cfg.hasHR && Faithful(cfg.measure) && |datasets[1].samples| > 0
             && forall i :: 0 <= i < |datasets[1].samples| ==>
                  cfg.measure(datasets[1].samples[i]).Ok? && !IsColour(datasets[1].samples[i])
    ensures RunAllWith(configOf, g, datasets).Ok?
    ensures var outs := RunAllWith(configOf, g, datasets).value.0;
            |outs[0].results.yL1| > 0 && AllGrayWith(outs[1].reports, Last(outs[0].results.yL1))
  {
    var first := EvaluateWith(configOf(datasets[0].opt), g, datasets[0].samples).value;
    var cfg := configOf(datasets[1].opt);
    StaleLumaL1AcrossDatasets(configOf(datasets[0].opt), cfg, g, datasets[0].samples, datasets[1].samples);
    var second := EvaluateWith(cfg, first.1, datasets[1].samples).value;
    TwoDatasets(configOf, g, datasets);
  }

  /** Every line of the reports is a grayscale line printing `l1Y`. */
  predicate AllGrayWith(reports: seq<ImageReport>, l1Y: real) {
    forall k :: 0 <= k < |reports| ==> GrayWith(reports[k].line, l1Y)
  }

  /** The last element of a non-empty list, `xs[-1]`. */
  function Last(xs: seq<real>): real
    requires |xs| > 0
  {
    xs[|xs| - 1]
  }

  /** A run over two datasets that both get through is their two outcomes, the second starting from the globals the first left. */
  lemma TwoDatasets(configOf: DatasetOpt -> LoopConfig, g: Globals, datasets: seq<Dataset>)
    requires |datasets| == 2
    requires var first := EvaluateWith(configOf(datasets[0].opt), g, datasets[0].samples);
             first.Ok? && EvaluateWith(configOf(datasets[1].opt), first.value.1, datasets[1].samples).Ok?
    ensures var first := EvaluateWith(configOf(datasets[0].opt), g, datasets[0].samples).value;
            var second := EvaluateWith(configOf(datasets[1].opt), first.1, datasets[1].samples).value;
            RunAllWith(configOf, g, datasets) == Ok(([first.0, second.0], second.1))
  {
    var first := EvaluateWith(configOf(datasets[0].opt), g, datasets[0].samples).value;
    var rest := datasets[1..];
    assert rest[0] == datasets[1];
    OneDataset(configOf, first.1, rest);
    RunAllWithCons(configOf, g, datasets);
    var second := EvaluateWith(configOf(rest[0].opt), first.1, rest[0].samples).value;
    assert [first.0] + [second.0] == [first.0, second.0];
  }

  /** A run over one dataset that gets through is its outcome. */
  lemma OneDataset(configOf: DatasetOpt -> LoopConfig, g: Globals, datasets: seq<Dataset>)
    requires |datasets| == 1 && EvaluateWith(configOf(datasets[0].opt), g, datasets[0].samples).Ok?
    ensures var only := EvaluateWith(configOf(datasets[0].opt), g, datasets[0].samples).value;
            RunAllWith(configOf, g, datasets) == Ok(([only.0], only.1))
  {
    var only := EvaluateWith(configOf(datasets[0].opt), g, datasets[0].samples).value;
    assert datasets[1..] == [];
    assert [only.0] + [] == [only.0];
  }

  /** When the first dataset and the rest of the run both get through, the run is the first outcome followed by the rest. */
  lemma RunAllWithCons(configOf: DatasetOpt -> LoopConfig, g: Globals, datasets: seq<Dataset>)
    requires |datasets| > 0
    requires var first := EvaluateWith(configOf(datasets[0].opt), g, datasets[0].samples);
             first.Ok? && RunAllWith(configOf, first.value.1, datasets[1..]).Ok?
    ensures var first := EvaluateWith(configOf(datasets[0].opt), g, datasets[0].samples).value;
            var rest := RunAllWith(configOf, first.1, datasets[1..]).value;
            RunAllWith(configOf, g, datasets) == Ok(([first.0] + rest.0, rest.1))
  {
  }

  // ---------------------------------------------------------------- dataset scenarios

  /** Without ground truth the loop only prints names and saves outputs: nothing is recorded and no summary is printed. */
  lemma DatasetWithoutGroundTruth(cfg: LoopConfig, g: Globals, samples: seq<Sample>)
    requires !cfg.hasHR && |samples| > 0
    ensures EvaluateWith(cfg, g, samples).Ok?
    ensures var out := EvaluateWith(cfg, g, samples).value.0;
            && out.summary.None? && out.results == NoResults
            && forall i :: 0 <= i < |samples| ==>
                 var (name, path) := cfg.namer(samples[i].lrPath);
                 out.reports[i] == ImageReport(NameOnly(name), path)
  {
    var st := LoopState(g, NoResults, []);
    RunSamplesOkIff(cfg, st, samples);
    RunSamplesReports(cfg, st, samples);
    RunSamplesKeepsResults(cfg, st, samples);
  }

  /**
   * With ground truth and measurable images, the summary exists, is the summary
   * of the records of all images in loader order, and has a luma part exactly
   * when some image is a colour image.
   */
  lemma DatasetWithGroundTruth(cfg: LoopConfig, g: Globals, samples: seq<Sample>)
    requires cfg.hasHR && Faithful(cfg.measure) && |samples| > 0
    requires forall i :: 0 <= i < |samples| ==> cfg.measure(samples[i]).Ok?
    requires g.l1YLoss.Some? || IsColour(samples[0])
    ensures EvaluateWith(cfg, g, samples).Ok?
    ensures var out := EvaluateWith(cfg, g, samples).value.0;
            && out.results == Columns(Recorded(cfg.measure, samples))
            && |out.results.psnr| == |samples|
            && |out.results.psnrY| == ColourCount(samples)
            && out.summary == Some(Summarize(out.results).value)
            && (out.summary.value.luma.Some? <==> exists i :: 0 <= i < |samples| && IsColour(samples[i]))
  {
    var st := LoopState(g, NoResults, []);
    RunSamplesOkIff(cfg, st, samples);
    RunSamplesRecords(cfg, st, samples, []);
    assert [] + Recorded(cfg.measure, samples) == Recorded(cfg.measure, samples);
    RecordedLumas(cfg.measure, samples);
    SummaryPresence(Recorded(cfg.measure, samples));
  }

  /** A grayscale first image fails while no colour image has bound `l1_y_loss`. */
  lemma GrayFirstImageFails(cfg: LoopConfig, g: Globals, samples: seq<Sample>)
    requires cfg.hasHR && Faithful(cfg.measure) && |samples| > 0 && g.l1YLoss.None?
    requires cfg.measure(samples[0]).Ok? && !IsColour(samples[0])
    ensures EvaluateWith(cfg, g, samples) == Err(UnboundName("l1_y_loss"))
  {
  }

  /**
   * A dataset of grayscale images after a colour image bound `l1_y_loss`: every
   * line repeats that stale value and there is no luma summary.
   */
  lemma GrayDatasetRepeatsStaleLumaL1(cfg: LoopConfig, g: Globals, samples: seq<Sample>, stale: real)
    requires cfg.hasHR && Faithful(cfg.measure) && |samples| > 0 && g.l1YLoss == Some(stale)
    requires forall i :: 0 <= i < |samples| ==> cfg.measure(samples[i]).Ok? && !IsColour(samples[i])
    ensures EvaluateWith(cfg, g, samples).Ok?
    ensures var out := EvaluateWith(cfg, g, samples).value;
            && out.0.summary.Some? && out.0.summary.value.luma.None?
            && out.1.l1YLoss == Some(stale)
            && forall k :: 0 <= k < |out.0.reports| ==> GrayWith(out.0.reports[k].line, stale)
  {
    DatasetWithGroundTruth(cfg, g, samples);
    GrayRunKeepsStale(cfg, LoopState(g, NoResults, []), samples, stale);
  }

  /**
   * An empty dataset prints no per-image line, and its summary depends on the
   * `need_HR` left by earlier datasets: unbound, a division by zero, or nothing.
   */
  lemma EmptyDataset(cfg: LoopConfig, g: Globals)
    ensures g.needHR.None? ==> EvaluateWith(cfg, g, []) == Err(UnboundName("need_HR"))
    ensures g.needHR == Some(true) ==> EvaluateWith(cfg, g, []) == Err(ZeroDivisionError)
    ensures g.needHR == Some(false) ==> EvaluateWith(cfg, g, []) == Ok((DatasetOutcome([], NoResults, None), g))
  {
  }

  /**
   * Two runs over the same images in different orders give the same summary
   * whenever both get through: the summary depends only on the multiset of images.
   */
  lemma DatasetSummaryOrderIndependent(cfg: LoopConfig, g: Globals, samples: seq<Sample>, shuffled: seq<Sample>)
    requires multiset(shuffled) == multiset(samples)
    requires EvaluateWith(cfg, g, samples).Ok? && EvaluateWith(cfg, g, shuffled).Ok?
    ensures EvaluateWith(cfg, g, samples).value.0.summary == EvaluateWith(cfg, g, shuffled).value.0.summary
  {
    assert |shuffled| == |multiset(shuffled)| == |multiset(samples)| == |samples|;
    var f := cfg.measure;
    var st := LoopState(g, NoResults, []);
    if cfg.hasHR {
      RunSamplesRecords(cfg, st, samples, []);
      RunSamplesRecords(cfg, st, shuffled, []);
      ProjectPermutation(samples, shuffled, OkOf(f));
      SomesPermutation(Project(samples, OkOf(f)), Project(shuffled, OkOf(f)));
      var rs := Recorded(f, samples);
      var qs := Recorded(f, shuffled);
      assert [] + rs == rs && [] + qs == qs;
      SummaryOfRecordsOrderIndependent(rs, qs);
    } else {
      RunSamplesKeepsResults(cfg, st, samples);
      RunSamplesKeepsResults(cfg, st, shuffled);
    }
  }

  /**
   * `l1_y_loss` survives from one dataset to the next: after a dataset that
   * recorded luma values, a grayscale dataset prints the last of them on every line.
   */
  lemma StaleLumaL1AcrossDatasets(first: LoopConfig, second: LoopConfig, g: Globals, s1: seq<Sample>, s2: seq<Sample>)
    requires EvaluateWith(first, g, s1).Ok? && |EvaluateWith(first, g, s1).value.0.results.yL1| > 0
    requires second.hasHR && Faithful(second.measure) && |s2| > 0
    requires forall i :: 0 <= i < |s2| ==> second.measure(s2[i]).Ok? && !IsColour(s2[i])
    ensures var one := EvaluateWith(first, g, s1).value;
            var yL1 := one.0.results.yL1;
            && EvaluateWith(second, one.1, s2).Ok?
            && AllGrayWith(EvaluateWith(second, one.1, s2).value.0.reports, Last(yL1))
  {
    var one := EvaluateWith(first, g, s1).value;
    var yL1 := one.0.results.yL1;
    GrayDatasetRepeatsStaleLumaL1(second, one.1, s2, yL1[|yL1| - 1]);
  }
}

=== FILE: images.dfy ===
/**
 * uint8 images as the evaluation loop sees them (height x width x channel
 * arrays), and the border crop `img[c:-c, c:-c, :]` under Python's slice rules.
 */
module Images {

  /** A numpy `uint8` element. */
  type byte = x: int | 0 <= x < 256

  /** A three-axis array with its shape; see `Rectangular`. */
  datatype Array3 = Array3(height: nat, width: nat, channels: nat, px: seq<seq<seq<byte>>>)

  /** The pixel rows agree with the recorded shape on every axis. */
  predicate Rectangular(a: Array3) {
    && |a.px| == a.height
    && (forall i :: 0 <= i < |a.px| ==> |a.px[i]| == a.width)
    && (forall i, j :: 0 <= i < |a.px| && 0 <= j < |a.px[i]| ==> |a.px[i][j]| == a.channels)
  }

  /** An image: rows of pixels of channel values, indexed `px[row][column][channel]`. */
  type Image = a: Array3 | Rectangular(a) witness Array3(0, 0, 0, [])

  /** numpy's `.size`: the number of elements. */
  function Size(img: Image): nat {
    img.height * img.width * img.channels
  }

  /** numpy's `.shape`. */
  function Shape(img: Image): (nat, nat, nat) {
    (img.height, img.width, img.channels)
  }

  /** Where a slice bound `i` lands on an axis of length `n`: negatives count from the end; both clamp to the axis. */
  function SliceBound(i: int, n: nat): (r: nat)
    ensures r <= n
    ensures 0 <= i <= n ==> r == i
    ensures -(n as int) <= i < 0 ==> r == n + i
    ensures i > n ==> r == n
    ensures i < -(n as int) ==> r == 0
  {
    if i < 0 then (if i + n < 0 then 0 else i + n)
    else if i > n then n
    else i
  }

  /** The length of `s[start:stop]` on an axis of length `n`. */
  function SliceLen(n: nat, start: int, stop: int): (len: nat)
    ensures len <= n
  {
    var lo := SliceBound(start, n);
    var hi := SliceBound(stop, n);
    if lo < hi then hi - lo else 0
  }

  /** Python's `s[start:stop]` with step 1: the elements from the lower bound up to (excluding) the upper one. */
  function PySlice<T>(s: seq<T>, start: int, stop: int): (r: seq<T>)
    ensures |r| == SliceLen(|s|, start, stop)
    ensures forall i :: 0 <= i < |r| ==> r[i] == s[SliceBound(start, |s|) + i]
  {
    var lo := SliceBound(start, |s|);
    var hi := SliceBound(stop, |s|);
    if lo < hi then s[lo..hi] else []
  }

  /** `s[c:-c]` for a positive `c` drops `c` elements from each end, leaving `max(n - 2c, 0)`. */
  lemma {:induction false} CropAxisPositive<T>(s: seq<T>, c: int)
    requires c >= 1
    ensures |PySlice(s, c, -c)| == if |s| >= 2 * c then |s| - 2 * c else 0
    ensures var r := PySlice(s, c, -c); forall i :: 0 <= i < |r| ==> r[i] == s[i + c]
  {
    if |s| >= 2 * c {
      assert SliceBound(c, |s|) == c;
      assert SliceBound(-c, |s|) == |s| - c;
    }
  }

  /**
   * The border crop `img[c:-c, c:-c, :]`. A zero border is `img[0:0, 0:0, :]`
   * and leaves nothing, rather than the whole image.
   */
  function Crop(img: Image, c: int): (r: Image)
    ensures r.height == SliceLen(img.height, c, -c)
    ensures r.width == SliceLen(img.width, c, -c)
    ensures r.channels == img.channels
    ensures c == 0 ==> r.height == 0 && r.width == 0 && Size(r) == 0
    ensures forall i, j :: 0 <= i < r.height && 0 <= j < r.width ==>
              r.px[i][j] == img.px[SliceBound(c, img.height) + i][SliceBound(c, img.width) + j]
  {
    var rows := PySlice(img.px, c, -c);
    var px := CropColumns(rows, c, img.width);
    CropPixels(img, c, px);
    var r := Array3(|rows|, SliceLen(img.width, c, -c), img.channels, px);
    assert Rectangular(r);
    assert c == 0 ==> r.height == 0 && Size(r) == 0;
    r
  }

  /** Every pixel of the crop is an input pixel offset by the lower bounds, so it keeps the image's channels. */
  lemma CropPixels(img: Image, c: int, px: seq<seq<seq<byte>>>)
    requires px == CropColumns(PySlice(img.px, c, -c), c, img.width)
    ensures forall i, j :: 0 <= i < |px| && 0 <= j < |px[i]| ==>
              px[i][j] == img.px[SliceBound(c, img.height) + i][SliceBound(c, img.width) + j] && |px[i][j]| == img.channels
  {
    var top, left := SliceBound(c, img.height), SliceBound(c, img.width);
    CropGrid(img.px, img.width, c, px);
    forall i, j | 0 <= i < |px| && 0 <= j < |px[i]|
      ensures |px[i][j]| == img.channels
    {
      assert top + i < img.height && left + j < img.width;
      assert |img.px[top + i]| == img.width;
      assert |img.px[top + i][left + j]| == img.channels;
    }
  }

  /** Cropping rows then columns of a grid of rows of width `w` offsets every element by the two lower bounds. */
  lemma CropGrid<T>(g: seq<seq<T>>, w: nat, c: int, px: seq<seq<T>>)
    requires forall i :: 0 <= i < |g| ==> |g[i]| == w
    requires px == CropColumns(PySlice(g, c, -c), c, w)
    ensures forall i, j :: 0 <= i < |px| && 0 <= j < |px[i]| ==>
              && SliceBound(c, |g|) + i < |g| && SliceBound(c, w) + j < w
              && px[i][j] == g[SliceBound(c, |g|) + i][SliceBound(c, w) + j]
  {
    var rows := PySlice(g, c, -c);
    forall i, j | 0 <= i < |px| && 0 <= j < |px[i]|
      ensures SliceBound(c, |g|) + i < |g| && SliceBound(c, w) + j < w
      ensures px[i][j] == g[SliceBound(c, |g|) + i][SliceBound(c, w) + j]
    {
      var row := rows[i];
      assert row == g[SliceBound(c, |g|) + i];
      assert |row| == w;
      assert px[i] == PySlice(row, c, -c);
    }
  }

  /** `rows[i][c:-c]` for every row of width `w`. */
  function CropColumns<T>(rows: seq<seq<T>>, c: int, w: nat): (px: seq<seq<T>>)
    requires forall i :: 0 <= i < |rows| ==> |rows[i]| == w
    ensures |px| == |rows|
    ensures forall i :: 0 <= i < |px| ==> |px[i]| == SliceLen(w, c, -c) && px[i] == PySlice(rows[i], c, -c)
  {
    seq(|rows|, i requires 0 <= i < |rows| => PySlice(rows[i], c, -c))
  }

  /**
   * For a positive border both spatial axes lose `2c` (down to nothing), the
   * channel axis is untouched, and output pixel `(i, j)` is input pixel `(i + c, j + c)`.
   */
  lemma CropPositive(img: Image, c: int)
    requires c >= 1
    ensures Crop(img, c).height == if img.height >= 2 * c then img.height - 2 * c else 0
    ensures Crop(img, c).width == if img.width >= 2 * c then img.width - 2 * c else 0
    ensures Crop(img, c).channels == img.channels
    ensures forall i, j :: 0 <= i < Crop(img, c).height && 0 <= j < Crop(img, c).width ==>
              Crop(img, c).px[i][j] == img.px[i + c][j + c]
  {
    var r := Crop(img, c);
    if img.height >= 2 * c {
      assert SliceBound(c, img.height) == c;
    }
    if img.width >= 2 * c {
      assert SliceBound(c, img.width) == c;
    }
  }
}

=== FILE: loss.dfy ===
/**
 * The evaluation's `L1_loss(pre, gt)`: the sum of `abs(pre - gt)` over all
 * elements, divided by the element count and by 255. Both arrays are `uint8`,
 * so the subtraction wraps modulo 256 before `abs` (which is then the identity).
 */
module Loss {
  import opened Wrappers
  import opened Images

  /** numpy `uint8` subtraction: the difference wraps around modulo 256. */
  function WrapSub(a: byte, b: byte): (d: byte)
    ensures a >= b ==> d == a - b
    ensures a < b ==> d == a - b + 256
    ensures d == 0 <==> a == b
  {
    (a - b) % 256
  }

  /** Subtracting a value that was offset by `d` (modulo 256) recovers `d` modulo 256. */
  lemma WrapSubOffset(q: byte, d: int)
    ensures WrapSub((q + d) % 256, q) == d % 256
  {
    var t := (q + d) / 256;
    assert (q + d) % 256 - q == d - 256 * t;
  }

  /** Wrapped differences summed over the channels of one pixel. */
  function PixelDiff(p: seq<byte>, q: seq<byte>): nat
    requires |p| == |q|
    decreases |p|
  {
    if |p| == 0 then 0 else WrapSub(p[0], q[0]) + PixelDiff(p[1..], q[1..])
  }

  /** Every pixel of a row has `c` channels. */
  predicate RowShape(r: seq<seq<byte>>, c: nat) {
    forall j :: 0 <= j < |r| ==> |r[j]| == c
  }

  /** Wrapped differences summed over a row of pixels with `c` channels each. */
  function RowDiff(r: seq<seq<byte>>, s: seq<seq<byte>>, c: nat): nat
    requires |r| == |s| && RowShape(r, c) && RowShape(s, c)
    decreases |r|
  {
    if |r| == 0 then 0 else PixelDiff(r[0], s[0]) + RowDiff(r[1..], s[1..], c)
  }

  /** Every row has `w` pixels of `c` channels. */
  predicate GridShape(a: seq<seq<seq<byte>>>, w: nat, c: nat) {
    forall i :: 0 <= i < |a| ==> |a[i]| == w && RowShape(a[i], c)
  }

  /** Wrapped differences summed over all rows. */
  function GridDiff(a: seq<seq<seq<byte>>>, b: seq<seq<seq<byte>>>, w: nat, c: nat): nat
    requires |a| == |b| && GridShape(a, w, c) && GridShape(b, w, c)
    decreases |a|
  {
    if |a| == 0 then 0 else RowDiff(a[0], b[0], c) + GridDiff(a[1..], b[1..], w, c)
  }

  /** `np.sum(np.abs(pre - gt))` over two images of one shape. */
  function AbsDiffSum(pre: Image, gt: Image): nat
    requires Shape(pre) == Shape(gt)
  {
    GridDiff(pre.px, gt.px, pre.width, pre.channels)
  }

  // ---------------------------------------------------------------- bounds

  lemma MulStep(n: int, m: int)
    ensures (n - 1) * m + m == n * m
  {
  }

  lemma MulAssoc(a: int, b: int, c: int)
    ensures a * b * c == a * (b * c)
  {
  }

  lemma {:induction false} PixelDiffBound(p: seq<byte>, q: seq<byte>)
    requires |p| == |q|
    ensures PixelDiff(p, q) <= 255 * |p|
    ensures PixelDiff(p, q) == 0 <==> p == q
    decreases |p|
  {
    if |p| > 0 {
      PixelDiffBound(p[1..], q[1..]);
      assert p == [p[0]] + p[1..] && q == [q[0]] + q[1..];
    }
  }

  lemma {:induction false} RowDiffBound(r: seq<seq<byte>>, s: seq<seq<byte>>, c: nat)
    requires |r| == |s| && RowShape(r, c) && RowShape(s, c)
    ensures RowDiff(r, s, c) <= 255 * c * |r|
    ensures RowDiff(r, s, c) == 0 <==> r == s
    decreases |r|
  {
    if |r| > 0 {
      PixelDiffBound(r[0], s[0]);
      RowDiffBound(r[1..], s[1..], c);
      BoundStep(PixelDiff(r[0], s[0]), RowDiff(r[1..], s[1..], c), 255 * c, |r|);
      HeadTailEqual(r, s);
    }
  }

  lemma {:induction false} GridDiffBound(a: seq<seq<seq<byte>>>, b: seq<seq<seq<byte>>>, w: nat, c: nat)
    requires |a| == |b| && GridShape(a, w, c) && GridShape(b, w, c)
    ensures GridDiff(a, b, w, c) <= 255 * (w * c) * |a|
    ensures GridDiff(a, b, w, c) == 0 <==> a == b
    decreases |a|
  {
    if |a| > 0 {
      var head, tail := RowDiff(a[0], b[0], c), GridDiff(a[1..], b[1..], w, c);
      assert GridDiff(a, b, w, c) == head + tail;
      assert |a[0]| == w;
      RowDiffBound(a[0], b[0], c);
      GridDiffBound(a[1..], b[1..], w, c);
      RowBoundScale(w, c);
      BoundStep(head, tail, 255 * (w * c), |a|);
      HeadTailEqual(a, b);
    }
  }

  lemma RowBoundScale(w: nat, c: nat)
    ensures 255 * c * w == 255 * (w * c)
  {
  }

  /** A head of at most `k` and a tail of at most `k * (n - 1)` add up to at most `k * n`. */
  lemma BoundStep(head: int, tail: int, k: int, n: nat)
    requires n > 0 && head <= k && tail <= k * (n - 1)
    ensures head + tail <= k * n
  {
    MulStep(n, k);
    assert k * (n - 1) == (n - 1) * k && k * n == n * k;
  }

  /** Two non-empty sequences of one length are equal exactly when their heads and their tails are. */
  lemma HeadTailEqual<T>(a: seq<T>, b: seq<T>)
    requires |a| == |b| > 0
    ensures a == b <==> a[0] == b[0] && a[1..] == b[1..]
  {
    assert a == [a[0]] + a[1..] && b == [b[0]] + b[1..];
  }

  /** Each element term lies in [0, 255], so the total is at most `255 * size`; it is zero only for equal images. */
  lemma AbsDiffSumBound(pre: Image, gt: Image)
    requires Shape(pre) == Shape(gt)
    ensures AbsDiffSum(pre, gt) <= 255 * Size(pre)
    ensures AbsDiffSum(pre, gt) == 0 <==> pre == gt
  {
    var w, c := pre.width, pre.channels;
    assert GridShape(pre.px, w, c) && GridShape(gt.px, w, c);
    GridDiffBound(pre.px, gt.px, w, c);
    SizeFactors(pre);
    SameShapeEqual(pre, gt);
  }

  lemma SizeFactors(img: Image)
    ensures 255 * (img.width * img.channels) * img.height == 255 * Size(img)
  {
    MulAssoc(img.height, img.width, img.channels);
  }

  /** Two images of one shape are equal exactly when their pixels are. */
  lemma SameShapeEqual(a: Image, b: Image)
    requires Shape(a) == Shape(b)
    ensures a == b <==> a.px == b.px
  {
  }

  // ---------------------------------------------------------------- the loss

  /** Why the loss has no value: numpy cannot subtract the arrays, or there is nothing to average. */
  datatype LossError = ShapeMismatch | EmptyArray

  /**
   * `L1_loss(pre, gt)`. Different shapes cannot be subtracted; an empty array
   * makes the division by `size` meaningless.
   */
  function L1Loss(pre: Image, gt: Image): (r: Result<real, LossError>)
    ensures Shape(pre) != Shape(gt) <==> r == Err(ShapeMismatch)
    ensures Shape(pre) == Shape(gt) && Size(pre) == 0 <==> r == Err(EmptyArray)
    ensures r.Ok? ==> 0.0 <= r.value <= 1.0
  {
    if Shape(pre) != Shape(gt) then Err(ShapeMismatch)
    else if Size(pre) == 0 then Err(EmptyArray)
    else
      var total := AbsDiffSum(pre, gt);
      AbsDiffSumBound(pre, gt);
      RatioBound(total, Size(pre));
      Ok((total as real) / (Size(pre) as real) / 255.0)
  }

  /** A sum of at most 255 per element, averaged and divided by 255, lies in [0, 1]. */
  lemma RatioBound(total: nat, size: nat)
    requires size > 0 && total <= 255 * size
    ensures 0.0 <= (total as real) / (size as real) / 255.0 <= 1.0
  {
    var m := (total as real) / (size as real);
    assert m * (size as real) == total as real;
    assert m <= 255.0 by {
      if m > 255.0 {
        assert m * (size as real) > 255.0 * (size as real);
      }
    }
  }

  /** The loss is zero exactly when the two images are the same non-empty image. */
  lemma L1ZeroIffIdentical(pre: Image, gt: Image)
    ensures L1Loss(pre, gt) == Ok(0.0) <==> pre == gt && Size(pre) > 0
  {
    if Shape(pre) == Shape(gt) && Size(pre) > 0 {
      AbsDiffSumBound(pre, gt);
      var total := AbsDiffSum(pre, gt);
      var s := Size(pre) as real;
      if total > 0 {
        assert (total as real) / s > 0.0;
      }
    }
  }

  // ---------------------------------------------------------------- uniform offsets

  /** Every element of `a` is the matching element of `b` plus `d`, wrapped to a byte. */
  predicate OffsetBy(a: Image, b: Image, d: int)
    requires Shape(a) == Shape(b)
  {
    forall i, j, k :: 0 <= i < a.height && 0 <= j < a.width && 0 <= k < a.channels ==>
      a.px[i][j][k] == (b.px[i][j][k] + d) % 256
  }

  lemma {:induction false} PixelDiffOffset(p: seq<byte>, q: seq<byte>, d: int)
    requires |p| == |q|
    requires forall k :: 0 <= k < |p| ==> p[k] == (q[k] + d) % 256
    ensures PixelDiff(p, q) == |p| * (d % 256)
    decreases |p|
  {
    if |p| > 0 {
      WrapSubOffset(q[0], d);
      assert WrapSub(p[0], q[0]) == d % 256;
      assert forall k :: 0 <= k < |p[1..]| ==> p[1..][k] == p[k + 1];
      PixelDiffOffset(p[1..], q[1..], d);
      MulStep(|p|, d % 256);
    }
  }

  lemma {:induction false} RowDiffOffset(r: seq<seq<byte>>, s: seq<seq<byte>>, c: nat, d: int)
    requires |r| == |s| && RowShape(r, c) && RowShape(s, c)
    requires forall j, k :: 0 <= j < |r| && 0 <= k < c ==> r[j][k] == (s[j][k] + d) % 256
    ensures RowDiff(r, s, c) == |r| * c * (d % 256)
    decreases |r|
  {
    if |r| > 0 {
      PixelDiffOffset(r[0], s[0], d);
      RowDiffOffset(r[1..], s[1..], c, d);
      var m := c * (d % 256);
      MulAssoc(|r| - 1, c, d % 256);
      MulAssoc(|r|, c, d % 256);
      MulStep(|r|, m);
    }
  }

  lemma {:induction false} GridDiffOffset(a: seq<seq<seq<byte>>>, b: seq<seq<seq<byte>>>, w: nat, c: nat, d: int)
    requires |a| == |b| && GridShape(a, w, c) && GridShape(b, w, c)
    requires forall i, j, k :: 0 <= i < |a| && 0 <= j < w && 0 <= k < c ==> a[i][j][k] == (b[i][j][k] + d) % 256
    ensures GridDiff(a, b, w, c) == |a| * (w * c * (d % 256))
    decreases |a|
  {
    if |a| > 0 {
      RowDiffOffset(a[0], b[0], c, d);
      GridDiffOffset(a[1..], b[1..], w, c, d);
      MulAssoc(1, w, c * (d % 256));
      assert RowDiff(a[0], b[0], c) == w * c * (d % 256);
      MulStep(|a|, w * c * (d % 256));
    }
  }

  /** When `pre` is `gt` shifted by `d` everywhere, the loss is `(d mod 256) / 255`. */
  lemma L1ConstantOffset(pre: Image, gt: Image, d: int)
    requires Shape(pre) == Shape(gt) && Size(pre) > 0
    requires OffsetBy(pre, gt, d)
    ensures L1Loss(pre, gt) == Ok(((d % 256) as real) / 255.0)
  {
    OffsetDiffSum(pre, gt, d);
    ScaledRatio(Size(pre), d % 256);
  }

  /** A uniform wrapped offset contributes the same difference at every element. */
  lemma OffsetDiffSum(pre: Image, gt: Image, d: int)
    requires Shape(pre) == Shape(gt) && OffsetBy(pre, gt, d)
    ensures AbsDiffSum(pre, gt) == Size(pre) * (d % 256)
  {
    OffsetRows(pre, gt, d);
    Regroup(pre.height, pre.width, pre.channels, d % 256);
  }

  /** Each of the `height` rows contributes `width * channels` times the wrapped offset. */
  lemma OffsetRows(pre: Image, gt: Image, d: int)
    requires Shape(pre) == Shape(gt) && OffsetBy(pre, gt, d)
    ensures AbsDiffSum(pre, gt) == pre.height * (pre.width * pre.channels * (d % 256))
  {
    var w, c := pre.width, pre.channels;
    assert GridShape(pre.px, w, c) && GridShape(gt.px, w, c);
    GridDiffOffset(pre.px, gt.px, w, c, d);
  }

  lemma Regroup(h: int, w: int, c: int, m: int)
    ensures h * (w * c * m) == h * w * c * m
  {
    MulAssoc(w, c, m);
    MulAssoc(h, w * c, m);
    MulAssoc(h, w, c);
  }

  lemma ScaledRatio(n: nat, m: int)
    requires n > 0
    ensures ((n * m) as real) / (n as real) / 255.0 == (m as real) / 255.0
  {
    assert ((n * m) as real) == (n as real) * (m as real);
  }

  /** A prediction one level brighter everywhere scores 1/255. */
  lemma L1UniformIncrement(pre: Image, gt: Image)
    requires Shape(pre) == Shape(gt) && Size(pre) > 0
    requires OffsetBy(pre, gt, 1)
    ensures L1Loss(pre, gt) == Ok(1.0 / 255.0)
  {
    L1ConstantOffset(pre, gt, 1);
  }

  /** A prediction one level darker everywhere wraps to 255 per element and scores 1, the maximum. */
  lemma L1UniformDecrement(pre: Image, gt: Image)
    requires Shape(pre) == Shape(gt) && Size(pre) > 0
    requires OffsetBy(pre, gt, -1)
    ensures L1Loss(pre, gt) == Ok(1.0)
  {
    L1ConstantOffset(pre, gt, -1);
  }

  /** Because of the wrap-around the loss is not symmetric: swapping the arguments of a 1x1x1 pair changes it. */
  lemma L1DependsOnArgumentOrder()
    ensures var one: Image := Array3(1, 1, 1, [[[1]]]);
            var zero: Image := Array3(1, 1, 1, [[[0]]]);
            L1Loss(one, zero) == Ok(1.0 / 255.0) && L1Loss(zero, one) == Ok(1.0)
  {
    var one: Image := Array3(1, 1, 1, [[[1]]]);
    var zero: Image := Array3(1, 1, 1, [[[0]]]);
    assert one.px[0][0][0] == 1 && zero.px[0][0][0] == 0;
    assert OffsetBy(one, zero, 1) && OffsetBy(zero, one, -1);
    L1UniformIncrement(one, zero);
    L1UniformDecrement(zero, one);
  }
}

=== FILE: paths.dfy ===
/**
 * Image-name and output-path derivation of the evaluation loop, following the
 * POSIX flavour of Python's `os.path`: `basename`, `splitext` and a two-part
 * `join`.
 */
module Paths {
  import opened Wrappers

  const Sep: char := '/'
  const ExtSep: char := '.'
  const PngExt: string := ".png"

  /** Index of the last occurrence of `c` in `s`, or -1 when there is none (`str.rfind`). */
  function RFind(s: string, c: char): (k: int)
    ensures -1 <= k < |s|
    ensures k >= 0 ==> s[k] == c
    ensures forall i :: k < i < |s| ==> s[i] != c
    decreases |s|
  {
    if |s| == 0 then -1
    else if s[|s| - 1] == c then |s| - 1
    else RFind(s[..|s| - 1], c)
  }

  /** `t` is a suffix of `s` (`str.endswith`). */
  predicate EndsWith(s: string, t: string) {
    |t| <= |s| && s[|s| - |t|..] == t
  }

  lemma EndsWithTransitive(s: string, t: string, u: string)
    requires EndsWith(s, t) && EndsWith(t, u)
    ensures EndsWith(s, u)
  {
    assert s[|s| - |u|..] == s[|s| - |t|..][|t| - |u|..];
  }

  /** `os.path.basename`: the text after the last separator. */
  function Basename(p: string): (b: string)
    ensures Sep !in b
    ensures EndsWith(p, b)
    ensures |b| < |p| ==> p[|p| - |b| - 1] == Sep
  {
    p[RFind(p, Sep) + 1..]
  }

  /** A final path component has an extension when a dot follows some non-dot character. */
  predicate HasExtension(b: string) {
    exists i, j :: 0 <= i < j < |b| && b[i] != ExtSep && b[j] == ExtSep
  }

  /**
   * `os.path.splitext`: splits off the text from the last dot of the final
   * component, unless every character before that dot in the component is a
   * dot itself (a leading-dot name such as `.bashrc` has no extension).
   */
  function Splitext(p: string): (r: (string, string))
    ensures r.0 + r.1 == p
    ensures r.1 != "" ==> r.1[0] == ExtSep && ExtSep !in r.1[1..] && Sep !in r.1
  {
    var sepIndex := RFind(p, Sep);
    var dotIndex := RFind(p, ExtSep);
    if dotIndex > sepIndex && exists i :: sepIndex + 1 <= i < dotIndex && p[i] != ExtSep then
      assert p[..dotIndex] + p[dotIndex..] == p;
      (p[..dotIndex], p[dotIndex..])
    else
      (p, "")
  }

  /** The extension is split off exactly when the final component has one. */
  lemma SplitextSplitsIffExtension(p: string)
    ensures Splitext(p).1 != "" <==> HasExtension(Basename(p))
  {
    var s := RFind(p, Sep);
    var d := RFind(p, ExtSep);
    var b := Basename(p);
    assert b == p[s + 1..];
    if Splitext(p).1 != "" {
      var i :| s + 1 <= i < d && p[i] != ExtSep;
      assert b[i - s - 1] == p[i] && b[d - s - 1] == p[d];
    }
    if HasExtension(b) {
      var i, j :| 0 <= i < j < |b| && b[i] != ExtSep && b[j] == ExtSep;
      assert p[j + s + 1] == ExtSep;
      assert p[i + s + 1] != ExtSep;
      assert d >= j + s + 1;
    }
  }

  /** A string without separators is its own base name. */
  lemma BasenameOfComponent(b: string)
    requires Sep !in b
    ensures Basename(b) == b
  {
    assert RFind(b, Sep) == -1;
  }

  /** The name an output image is saved under: the base name of its input path without extension. */
  function ImageName(lrPath: string): (name: string)
    ensures Sep !in name
    ensures |name| <= |Basename(lrPath)| && Basename(lrPath)[..|name|] == name
    ensures name + Splitext(Basename(lrPath)).1 == Basename(lrPath)
  {
    var b := Basename(lrPath);
    var r := Splitext(b);
    assert b[..|r.0|] == r.0;
    r.0
  }

  /** The image name drops something from the base name exactly when the base name has an extension. */
  lemma ImageNameStripsIffExtension(lrPath: string)
    ensures HasExtension(Basename(lrPath)) <==> ImageName(lrPath) != Basename(lrPath)
  {
    var b := Basename(lrPath);
    SplitextSplitsIffExtension(b);
    BasenameOfComponent(b);
    assert Splitext(b).0 + Splitext(b).1 == b;
  }

  /** `os.path.join(a, b)`: an absolute second part replaces the first; otherwise one separator joins them. */
  function Join(a: string, b: string): (r: string)
    ensures EndsWith(r, b)
    ensures |b| > 0 && b[0] == Sep ==> r == b
    ensures (|b| == 0 || b[0] != Sep) ==> r == DirPrefix(a) + b
  {
    if |b| > 0 && b[0] == Sep then b
    else DirPrefix(a) + b
  }

  /** The directory part as it appears in front of a relative name. */
  function DirPrefix(a: string): string {
    if a == "" || a[|a| - 1] == Sep then a else a + [Sep]
  }

  /** The per-dataset results directory. */
  function DatasetDir(resultsRoot: string, setName: string): (r: string)
    ensures |setName| > 0 && setName[0] != Sep ==> r == DirPrefix(resultsRoot) + setName
  {
    Join(resultsRoot, setName)
  }

  /** The file name an output image is written to: a truthy suffix is inserted before `.png`. */
  function SaveFileName(name: string, suffix: Option<string>): (f: string)
    ensures EndsWith(f, PngExt)
    ensures suffix.Some? && suffix.value != "" ==> f == name + suffix.value + PngExt
    ensures suffix.None? || suffix.value == "" ==> f == name + PngExt
  {
    if suffix.Some? && suffix.value != "" then name + suffix.value + PngExt else name + PngExt
  }

  /** The path an output image is written to. */
  function SavePath(datasetDir: string, name: string, suffix: Option<string>): (r: string)
    ensures EndsWith(r, PngExt)
  {
    var f := SaveFileName(name, suffix);
    var r := Join(datasetDir, f);
    EndsWithTransitive(r, f, PngExt);
    r
  }

  /**
   * For an image name derived from an input path, the saved file sits directly
   * in the dataset directory whenever that name is non-empty, whatever the suffix.
   */
  lemma SavePathInDatasetDir(datasetDir: string, lrPath: string, suffix: Option<string>)
    requires ImageName(lrPath) != ""
    ensures SavePath(datasetDir, ImageName(lrPath), suffix)
            == DirPrefix(datasetDir) + SaveFileName(ImageName(lrPath), suffix)
  {
    var name := ImageName(lrPath);
    var f := SaveFileName(name, suffix);
    assert f[0] == name[0];
    assert name[0] != Sep;
  }

  /**
   * With an empty image name (an input path ending in a separator) an absolute
   * suffix escapes the dataset directory.
   */
  lemma SavePathEmptyNameAbsoluteSuffix(datasetDir: string)
    ensures ImageName("lr/") == ""
    ensures SavePath(datasetDir, ImageName("lr/"), Some("/x")) == "/x.png"
  {
    assert RFind("lr/", Sep) == 2;
    assert Basename("lr/") == "";
  }
}

=== FILE: records.dfy ===
/**
 * The per-image metric record, the six `test_results` lists the evaluation
 * loop appends to, and the per-dataset summary computed from them.
 */
module Records {
  import opened Wrappers
  import opened Stats

  /** The luma-channel metrics, present for 3-channel images only. */
  datatype LumaRecord = LumaRecord(psnrY: real, ssimY: real, l1Y: real)

  /** What one image with ground truth contributes. */
  datatype MetricRecord = MetricRecord(psnr: real, ssim: real, l1: real, luma: Option<LumaRecord>)

  /** The `test_results` dictionary: `psnr`, `ssim`, `psnr_y`, `ssim_y`, `L1`, `Y_L1`. */
  datatype TestResults = TestResults(
    psnr: seq<real>, ssim: seq<real>,
    psnrY: seq<real>, ssimY: seq<real>,
    l1: seq<real>, yL1: seq<real>)

  const NoResults: TestResults := TestResults([], [], [], [], [], [])

  /** The three main lists have one length, the three luma lists another, never more than the main one. */
  predicate WellFormed(r: TestResults) {
    && |r.ssim| == |r.psnr| && |r.l1| == |r.psnr|
    && |r.ssimY| == |r.psnrY| && |r.yL1| == |r.psnrY|
    && |r.psnrY| <= |r.psnr|
  }

  /**
   * Appending one image's metrics: the main lists always grow by one, the luma
   * lists only when the record carries luma metrics.
   */
  function Record(res: TestResults, rec: MetricRecord): (r: TestResults)
    ensures WellFormed(res) ==> WellFormed(r)
    ensures |r.psnr| == |res.psnr| + 1 && |r.ssim| == |res.ssim| + 1 && |r.l1| == |res.l1| + 1
    ensures |r.psnrY| == |res.psnrY| + (if rec.luma.Some? then 1 else 0)
    ensures |r.ssimY| == |res.ssimY| + (if rec.luma.Some? then 1 else 0)
    ensures |r.yL1| == |res.yL1| + (if rec.luma.Some? then 1 else 0)
  {
    var main := res.(psnr := res.psnr + [rec.psnr], ssim := res.ssim + [rec.ssim], l1 := res.l1 + [rec.l1]);
    match rec.luma
    case None => main
    case Some(y) => main.(psnrY := res.psnrY + [y.psnrY], ssimY := res.ssimY + [y.ssimY], yL1 := res.yL1 + [y.l1Y])
  }

  // ---------------------------------------------------------------- columns of a record sequence

  /** Applies `f` to every element. */
  function Project<A, B>(xs: seq<A>, f: A -> B): (ys: seq<B>)
    ensures |ys| == |xs|
    ensures forall i :: 0 <= i < |xs| ==> ys[i] == f(xs[i])
    decreases |xs|
  {
    if |xs| == 0 then [] else [f(xs[0])] + Project(xs[1..], f)
  }

  /** The present values, in order. */
  function Somes<T>(xs: seq<Option<T>>): (ys: seq<T>)
    ensures |ys| <= |xs|
    decreases |xs|
  {
    if |xs| == 0 then [] else (if xs[0].Some? then [xs[0].value] else []) + Somes(xs[1..])
  }

  function PsnrOf(r: MetricRecord): real { r.psnr }
  function SsimOf(r: MetricRecord): real { r.ssim }
  function L1Of(r: MetricRecord): real { r.l1 }
  function LumaOf(r: MetricRecord): Option<LumaRecord> { r.luma }
  function PsnrYOf(y: LumaRecord): real { y.psnrY }
  function SsimYOf(y: LumaRecord): real { y.ssimY }
  function L1YOf(y: LumaRecord): real { y.l1Y }

  /** The luma records of the colour images, in order. */
  function Lumas(rs: seq<MetricRecord>): seq<LumaRecord> {
    Somes(Project(rs, LumaOf))
  }

  /** The lists a sequence of records is expected to leave behind: one column per metric. */
  function Columns(rs: seq<MetricRecord>): (r: TestResults)
    ensures WellFormed(r)
    ensures |r.psnr| == |rs|
  {
    var ys := Lumas(rs);
    TestResults(
      Project(rs, PsnrOf), Project(rs, SsimOf),
      Project(ys, PsnrYOf), Project(ys, SsimYOf),
      Project(rs, L1Of), Project(ys, L1YOf))
  }

  lemma ProjectConcat<A, B>(a: seq<A>, b: seq<A>, f: A -> B)
    ensures Project(a + b, f) == Project(a, f) + Project(b, f)
  {
    assert forall i :: 0 <= i < |a| ==> (a + b)[i] == a[i];
    assert forall i :: |a| <= i < |a| + |b| ==> (a + b)[i] == b[i - |a|];
  }

  lemma {:induction false} SomesConcat<T>(a: seq<Option<T>>, b: seq<Option<T>>)
    ensures Somes(a + b) == Somes(a) + Somes(b)
    decreases |a|
  {
    if |a| == 0 {
      assert a + b == b;
    } else {
      var head := if a[0].Some? then [a[0].value] else [];
      assert (a + b)[0] == a[0];
      assert (a + b)[1..] == a[1..] + b;
      assert Somes(a + b) == head + Somes(a[1..] + b);
      SomesConcat(a[1..], b);
      assert Somes(a) == head + Somes(a[1..]);
    }
  }

  /** A record has luma metrics exactly when it adds to the luma columns. */
  lemma {:induction false} LumasPresentIff(rs: seq<MetricRecord>)
    ensures |Lumas(rs)| > 0 <==> exists i :: 0 <= i < |rs| && rs[i].luma.Some?
    decreases |rs|
  {
    if |rs| > 0 {
      LumasPresentIff(rs[1..]);
      assert Project(rs, LumaOf)[1..] == Project(rs[1..], LumaOf);
      assert forall i :: 1 <= i < |rs| ==> rs[1..][i - 1] == rs[i];
      if exists i :: 0 <= i < |rs| && rs[i].luma.Some? {
        var i :| 0 <= i < |rs| && rs[i].luma.Some?;
        if i > 0 {
          assert rs[1..][i - 1].luma.Some?;
        }
      }
    }
  }

  /** Appending a record to the lists is appending it to the record sequence: `Record` computes `Columns` incrementally. */
  lemma RecordExtendsColumns(rs: seq<MetricRecord>, rec: MetricRecord)
    ensures Record(Columns(rs), rec) == Columns(rs + [rec])
  {
    ProjectSnoc(rs, rec, PsnrOf);
    ProjectSnoc(rs, rec, SsimOf);
    ProjectSnoc(rs, rec, L1Of);
    LumasSnoc(rs, rec);
    var ys := Lumas(rs);
    if rec.luma.Some? {
      var y := rec.luma.value;
      ProjectSnoc(ys, y, PsnrYOf);
      ProjectSnoc(ys, y, SsimYOf);
      ProjectSnoc(ys, y, L1YOf);
    } else {
      assert Lumas(rs + [rec]) == ys;
    }
  }

  lemma ProjectSnoc<A, B>(xs: seq<A>, x: A, f: A -> B)
    ensures Project(xs + [x], f) == Project(xs, f) + [f(x)]
  {
    ProjectConcat(xs, [x], f);
    assert Project([x], f) == [f(x)];
  }

  /** A record adds its luma metrics, if any, to the end of the luma records. */
  lemma LumasSnoc(rs: seq<MetricRecord>, rec: MetricRecord)
    ensures Lumas(rs + [rec]) == Lumas(rs) + (if rec.luma.Some? then [rec.luma.value] else [])
  {
    ProjectSnoc(rs, rec, LumaOf);
    SomesConcat(Project(rs, LumaOf), [rec.luma]);
    assert Somes([rec.luma]) == if rec.luma.Some? then [rec.luma.value] else [] by {
      assert [rec.luma][1..] == [];
    }
  }

  // ---------------------------------------------------------------- order independence

  /** Where the first element of `xs` sits in a permutation `ys` of it, and what is left of both without it. */
  lemma PickFirst<T>(xs: seq<T>, ys: seq<T>) returns (j: nat)
    requires |xs| > 0 && multiset(xs) == multiset(ys)
    ensures j < |ys| && ys[j] == xs[0]
    ensures ys == ys[..j] + ([xs[0]] + ys[j + 1..])
    ensures xs == [xs[0]] + xs[1..]
    ensures multiset(xs[1..]) == multiset(ys[..j] + ys[j + 1..])
  {
    assert xs[0] in multiset(ys);
    j :| 0 <= j < |ys| && ys[j] == xs[0];
    RemoveAt(xs, 0);
    RemoveAt(ys, j);
    assert xs[..0] + xs[1..] == xs[1..];
  }

  /** Taking out the element at `j` splits the sequence around it and removes one copy from its multiset. */
  lemma RemoveAt<T>(ys: seq<T>, j: nat)
    requires j < |ys|
    ensures ys == ys[..j] + ([ys[j]] + ys[j + 1..])
    ensures multiset(ys[..j] + ys[j + 1..]) == multiset(ys) - multiset{ys[j]}
  {
    assert ys == ys[..j] + [ys[j]] + ys[j + 1..];
    assert multiset(ys) == multiset(ys[..j]) + multiset{ys[j]} + multiset(ys[j + 1..]);
  }

  lemma {:induction false} ProjectPermutation<A, B>(xs: seq<A>, ys: seq<A>, f: A -> B)
    requires multiset(xs) == multiset(ys)
    ensures multiset(Project(xs, f)) == multiset(Project(ys, f))
    decreases |xs|
  {
    if |xs| == 0 {
      assert |ys| == |multiset(ys)| == 0;
    } else {
      var x := xs[0];
      var j := PickFirst(xs, ys);
      var a, b := ys[..j], ys[j + 1..];
      ProjectPermutation(xs[1..], a + b, f);
      ProjectConcat(a, [x] + b, f);
      ProjectConcat([x], b, f);
      ProjectConcat(a, b, f);
      ProjectConcat([x], xs[1..], f);
    }
  }

  lemma {:induction false} SomesPermutation<T>(xs: seq<Option<T>>, ys: seq<Option<T>>)
    requires multiset(xs) == multiset(ys)
    ensures multiset(Somes(xs)) == multiset(Somes(ys))
    decreases |xs|
  {
    if |xs| == 0 {
      assert |ys| == |multiset(ys)| == 0;
    } else {
      var x := xs[0];
      var j := PickFirst(xs, ys);
      var a, b := ys[..j], ys[j + 1..];
      SomesPermutation(xs[1..], a + b);
      SomesConcat(a, [x] + b);
      SomesConcat([x], b);
      SomesConcat(a, b);
      SomesConcat([x], xs[1..]);
    }
  }

  /** Reordering the records only reorders each list. */
  lemma ColumnsPermutation(rs: seq<MetricRecord>, qs: seq<MetricRecord>)
    requires multiset(rs) == multiset(qs)
    ensures var a, b := Columns(rs), Columns(qs);
            && multiset(a.psnr) == multiset(b.psnr) && multiset(a.ssim) == multiset(b.ssim)
            && multiset(a.l1) == multiset(b.l1) && multiset(a.psnrY) == multiset(b.psnrY)
            && multiset(a.ssimY) == multiset(b.ssimY) && multiset(a.yL1) == multiset(b.yL1)
  {
    ProjectPermutation(rs, qs, PsnrOf);
    ProjectPermutation(rs, qs, SsimOf);
    ProjectPermutation(rs, qs, L1Of);
    ProjectPermutation(rs, qs, LumaOf);
    SomesPermutation(Project(rs, LumaOf), Project(qs, LumaOf));
    ProjectPermutation(Lumas(rs), Lumas(qs), PsnrYOf);
    ProjectPermutation(Lumas(rs), Lumas(qs), SsimYOf);
    ProjectPermutation(Lumas(rs), Lumas(qs), L1YOf);
  }

  // ---------------------------------------------------------------- summary

  /** Mean and population variance of the three luma lists. */
  datatype LumaSummary = LumaSummary(
    psnrY: real, ssimY: real, psnrYVar: real, ssimYVar: real, l1YMean: real, l1YVar: real)

  /** Mean and population variance of the three main lists, and the luma summary when there is one. */
  datatype Summary = Summary(
    psnr: real, ssim: real, psnrVar: real, ssimVar: real, l1Mean: real, l1Var: real,
    luma: Option<LumaSummary>)

  /** `sum([]) / len([])` raises `ZeroDivisionError`. */
  datatype SummaryError = ZeroDivision

  /**
   * The summary after the loop: the main averages divide by the number of
   * recorded images; the luma summary is produced only when both the `psnr_y`
   * and `ssim_y` lists are non-empty.
   */
  function Summarize(res: TestResults): (r: Result<Summary, SummaryError>)
    requires WellFormed(res)
    ensures r.Err? <==> |res.psnr| == 0
    ensures r.Ok? ==> (r.value.luma.Some? <==> |res.psnrY| > 0 && |res.ssimY| > 0)
    ensures r.Ok? ==> r.value.psnrVar >= 0.0 && r.value.ssimVar >= 0.0 && r.value.l1Var >= 0.0
    ensures r.Ok? && r.value.luma.Some? ==>
              var y := r.value.luma.value; y.psnrYVar >= 0.0 && y.ssimYVar >= 0.0 && y.l1YVar >= 0.0
    ensures r.Ok? ==>
              && r.value.psnr == Mean(res.psnr) && r.value.psnrVar == Variance(res.psnr)
              && r.value.ssim == Mean(res.ssim) && r.value.ssimVar == Variance(res.ssim)
              && r.value.l1Mean == Mean(res.l1) && r.value.l1Var == Variance(res.l1)
    ensures r.Ok? && r.value.luma.Some? ==>
              var y := r.value.luma.value;
              && y.psnrY == Mean(res.psnrY) && y.psnrYVar == Variance(res.psnrY)
              && y.ssimY == Mean(res.ssimY) && y.ssimYVar == Variance(res.ssimY)
              && y.l1YMean == Mean(res.yL1) && y.l1YVar == Variance(res.yL1)
  {
    if |res.psnr| == 0 then Err(ZeroDivision)
    else
      var luma :=
        if |res.psnrY| > 0 && |res.ssimY| > 0 then
          Some(LumaSummary(
            Mean(res.psnrY), Mean(res.ssimY), Variance(res.psnrY), Variance(res.ssimY),
            Mean(res.yL1), Variance(res.yL1)))
        else None;
      Ok(Summary(
        Mean(res.psnr), Mean(res.ssim), Variance(res.psnr), Variance(res.ssim),
        Mean(res.l1), Variance(res.l1), luma))
  }

  /** The summary does not depend on the order the values were appended in. */
  lemma SummarizeOrderIndependent(a: TestResults, b: TestResults)
    requires WellFormed(a) && WellFormed(b)
    requires multiset(a.psnr) == multiset(b.psnr) && multiset(a.ssim) == multiset(b.ssim)
    requires multiset(a.l1) == multiset(b.l1) && multiset(a.psnrY) == multiset(b.psnrY)
    requires multiset(a.ssimY) == multiset(b.ssimY) && multiset(a.yL1) == multiset(b.yL1)
    ensures Summarize(a) == Summarize(b)
  {
    assert |a.psnr| == |multiset(a.psnr)| == |multiset(b.psnr)| == |b.psnr|;
    assert |a.psnrY| == |multiset(a.psnrY)| == |multiset(b.psnrY)| == |b.psnrY|;
    if |a.psnr| > 0 {
      MeanVariancePermutation(a.psnr, b.psnr);
      MeanVariancePermutation(a.ssim, b.ssim);
      MeanVariancePermutation(a.l1, b.l1);
      if |a.psnrY| > 0 {
        MeanVariancePermutation(a.psnrY, b.psnrY);
        MeanVariancePermutation(a.ssimY, b.ssimY);
        MeanVariancePermutation(a.yL1, b.yL1);
      }
    }
  }

  /** Recording the same images in any order gives the same summary. */
  lemma SummaryOfRecordsOrderIndependent(rs: seq<MetricRecord>, qs: seq<MetricRecord>)
    requires multiset(rs) == multiset(qs)
    ensures Summarize(Columns(rs)) == Summarize(Columns(qs))
  {
    ColumnsPermutation(rs, qs);
    SummarizeOrderIndependent(Columns(rs), Columns(qs));
  }

  /**
   * Over recorded images the main summary exists exactly when at least one
   * image was recorded, and the luma summary exactly when one of them was a
   * colour image: an all-grayscale set has no luma summary and divides by nothing.
   */
  lemma SummaryPresence(rs: seq<MetricRecord>)
    ensures Summarize(Columns(rs)).Ok? <==> |rs| > 0
    ensures Summarize(Columns(rs)).Ok? ==>
              (Summarize(Columns(rs)).value.luma.Some? <==> exists i :: 0 <= i < |rs| && rs[i].luma.Some?)
  {
    LumasPresentIff(rs);
  }

  /** Each image's L1 lies in [0, 1], so the summary's L1 means do too. */
  lemma SummaryL1InUnitRange(rs: seq<MetricRecord>)
    requires |rs| > 0
    requires forall i :: 0 <= i < |rs| ==> 0.0 <= rs[i].l1 <= 1.0
    requires forall y :: y in Lumas(rs) ==> 0.0 <= y.l1Y <= 1.0
    ensures Summarize(Columns(rs)).Ok?
    ensures 0.0 <= Summarize(Columns(rs)).value.l1Mean <= 1.0
    ensures Summarize(Columns(rs)).value.luma.Some? ==>
              0.0 <= Summarize(Columns(rs)).value.luma.value.l1YMean <= 1.0
  {
    var c := Columns(rs);
    MeanBounds(c.l1, 0.0, 1.0);
    var ys := Lumas(rs);
    if |c.yL1| > 0 {
      assert forall i :: 0 <= i < |c.yL1| ==> c.yL1[i] == ys[i].l1Y && ys[i] in ys;
      MeanBounds(c.yL1, 0.0, 1.0);
    }
  }
}

=== FILE: stats.dfy ===
/**
 * The dataset summary statistics over exact reals: Python's `sum(xs) / len(xs)`,
 * `np.mean` and the population variance behind `np.std` (the square root is
 * not modelled; see the README).
 */
module Stats {

  /** The sum of `f(x)` over the elements of `xs`. */
  function SumOf(xs: seq<real>, f: real -> real): real
    decreases |xs|
  {
    if |xs| == 0 then 0.0 else f(xs[0]) + SumOf(xs[1..], f)
  }

  function Identity(x: real): real {
    x
  }

  /**
   * The square of `x`. One factor is written through `Identity` so that the
   * solver keeps the term as a product of two factors instead of rewriting
   * comparisons of `x * x` with zero.
   */
  function Square(x: real): real {
    x * Identity(x)
  }

  /** The squared distance from `m`. */
  function SqDev(m: real): real -> real {
    x => Square(x - m)
  }

  function Sum(xs: seq<real>): real {
    SumOf(xs, Identity)
  }

  /** `sum(xs) / len(xs)`, the arithmetic mean; `len(xs) == 0` raises in the source. */
  function Mean(xs: seq<real>): (m: real)
    requires |xs| > 0
    ensures m * (|xs| as real) == Sum(xs)
  {
    Sum(xs) / (|xs| as real)
  }

  /** The population variance: mean squared deviation from the mean, dividing by N (numpy's default `ddof=0`). */
  function Variance(xs: seq<real>): (v: real)
    requires |xs| > 0
    ensures v >= 0.0
  {
    SqDevNonNegative(Mean(xs));
    SumOfNonNegative(xs, SqDev(Mean(xs)));
    SumOf(xs, SqDev(Mean(xs))) / (|xs| as real)
  }

  /** All recorded values are equal. */
  predicate Constant(xs: seq<real>) {
    forall i, j :: 0 <= i < |xs| && 0 <= j < |xs| ==> xs[i] == xs[j]
  }

  // ---------------------------------------------------------------- sums

  lemma {:induction false} SumOfConcat(a: seq<real>, b: seq<real>, f: real -> real)
    ensures SumOf(a + b, f) == SumOf(a, f) + SumOf(b, f)
    decreases |a|
  {
    if |a| > 0 {
      assert (a + b)[1..] == a[1..] + b;
      SumOfConcat(a[1..], b, f);
    } else {
      assert a + b == b;
    }
  }

  /** Reordering the values does not change the sum. */
  lemma {:induction false} SumOfPermutation(xs: seq<real>, ys: seq<real>, f: real -> real)
    requires multiset(xs) == multiset(ys)
    ensures SumOf(xs, f) == SumOf(ys, f)
    decreases |xs|
  {
    if |xs| == 0 {
      assert |ys| == |multiset(ys)| == 0;
    } else {
      var x := xs[0];
      assert x in multiset(ys);
      var j :| 0 <= j < |ys| && ys[j] == x;
      var rest := ys[..j] + ys[j + 1..];
      assert ys == ys[..j] + ([x] + ys[j + 1..]);
      SumOfConcat(ys[..j], [x] + ys[j + 1..], f);
      SumOfConcat(ys[..j], ys[j + 1..], f);
      assert SumOf([x] + ys[j + 1..], f) == f(x) + SumOf(ys[j + 1..], f) by {
        assert ([x] + ys[j + 1..])[1..] == ys[j + 1..];
      }
      assert xs == [x] + xs[1..];
      assert multiset(ys) == multiset(ys[..j]) + multiset([x]) + multiset(ys[j + 1..]);
      assert multiset(rest) == multiset(ys[..j]) + multiset(ys[j + 1..]);
      assert multiset(xs) == multiset([x]) + multiset(xs[1..]);
      assert multiset(xs[1..]) == multiset(xs) - multiset{x};
      assert multiset(rest) == multiset(ys) - multiset{x};
      SumOfPermutation(xs[1..], rest, f);
    }
  }

  lemma {:induction false} SumOfNonNegative(xs: seq<real>, f: real -> real)
    requires forall x :: f(x) >= 0.0
    ensures SumOf(xs, f) >= 0.0
    decreases |xs|
  {
    if |xs| > 0 {
      SumOfNonNegative(xs[1..], f);
    }
  }

  /** A sum of non-negative terms is zero only when every term is. */
  lemma {:induction false} SumOfZeroTerms(xs: seq<real>, f: real -> real)
    requires forall x :: f(x) >= 0.0
    ensures SumOf(xs, f) == 0.0 <==> forall i :: 0 <= i < |xs| ==> f(xs[i]) == 0.0
    decreases |xs|
  {
    if |xs| > 0 {
      SumOfZeroTerms(xs[1..], f);
      SumOfNonNegative(xs[1..], f);
      assert forall i :: 1 <= i < |xs| ==> xs[1..][i - 1] == xs[i];
    }
  }

  lemma {:induction false} SumOfBounds(xs: seq<real>, lo: real, hi: real)
    requires forall i :: 0 <= i < |xs| ==> lo <= xs[i] <= hi
    ensures (|xs| as real) * lo <= Sum(xs) <= (|xs| as real) * hi
    decreases |xs|
  {
    if |xs| > 0 {
      assert forall i :: 0 <= i < |xs[1..]| ==> xs[1..][i] == xs[i + 1];
      SumOfBounds(xs[1..], lo, hi);
    }
  }

  lemma {:induction false} SumOfConstant(xs: seq<real>)
    requires |xs| > 0 && Constant(xs)
    ensures Sum(xs) == (|xs| as real) * xs[0]
    decreases |xs|
  {
    assert Sum(xs) == xs[0] + Sum(xs[1..]);
    if |xs| > 1 {
      assert Constant(xs[1..]) by {
        assert forall i :: 0 <= i < |xs[1..]| ==> xs[1..][i] == xs[i + 1];
      }
      SumOfConstant(xs[1..]);
      assert xs[1..][0] == xs[0];
    } else {
      assert xs[1..] == [];
    }
  }

  // ---------------------------------------------------------------- mean and variance

  /** The mean lies between any lower and upper bound of the values. */
  lemma MeanBounds(xs: seq<real>, lo: real, hi: real)
    requires |xs| > 0
    requires forall i :: 0 <= i < |xs| ==> lo <= xs[i] <= hi
    ensures lo <= Mean(xs) <= hi
  {
    SumOfBounds(xs, lo, hi);
    var n := |xs| as real;
    assert Mean(xs) * n == Sum(xs);
  }

  /** Mean and variance do not depend on the order the values were recorded in. */
  lemma MeanVariancePermutation(xs: seq<real>, ys: seq<real>)
    requires |xs| > 0 && multiset(xs) == multiset(ys)
    ensures |ys| == |xs|
    ensures Mean(xs) == Mean(ys)
    ensures Variance(xs) == Variance(ys)
  {
    assert |xs| == |multiset(xs)| == |multiset(ys)| == |ys|;
    SumOfPermutation(xs, ys, Identity);
    SumOfPermutation(xs, ys, SqDev(Mean(xs)));
  }

  /** The variance is zero exactly when all recorded values are equal. */
  lemma VarianceZeroIffConstant(xs: seq<real>)
    requires |xs| > 0
    ensures Variance(xs) == 0.0 <==> Constant(xs)
  {
    var m := Mean(xs);
    var f := SqDev(m);
    var n := |xs| as real;
    assert Variance(xs) == SumOf(xs, f) / n;
    assert Variance(xs) == 0.0 <==> SumOf(xs, f) == 0.0;
    SqDevNonNegative(m);
    SumOfZeroTerms(xs, f);
    if Constant(xs) {
      ConstantDeviationsVanish(xs);
    }
    if SumOf(xs, f) == 0.0 {
      DeviationsVanishConstant(xs, m);
    }
  }

  lemma ConstantDeviationsVanish(xs: seq<real>)
    requires |xs| > 0 && Constant(xs)
    ensures forall i :: 0 <= i < |xs| ==> SqDev(Mean(xs))(xs[i]) == 0.0
  {
    SumOfConstant(xs);
    assert Mean(xs) == xs[0];
  }

  lemma DeviationsVanishConstant(xs: seq<real>, m: real)
    requires forall i :: 0 <= i < |xs| ==> SqDev(m)(xs[i]) == 0.0
    ensures Constant(xs)
  {
    forall i | 0 <= i < |xs|
      ensures xs[i] == m
    {
      assert SqDev(m)(xs[i]) == Square(xs[i] - m) == 0.0;
      SquareSign(xs[i] - m);
    }
  }

  lemma MulPositive(a: real, b: real)
    requires a > 0.0 && b > 0.0
    ensures a * b > 0.0
  {
  }

  lemma MulNegative(a: real, b: real)
    requires a < 0.0 && b < 0.0
    ensures a * b > 0.0
  {
  }

  /** A square is non-negative, and zero only at zero. */
  lemma SquareSign(d: real)
    ensures Square(d) >= 0.0
    ensures Square(d) == 0.0 <==> d == 0.0
  {
    if d > 0.0 {
      MulPositive(d, Identity(d));
    } else if d < 0.0 {
      MulNegative(d, Identity(d));
    }
  }

  lemma SqDevNonNegative(m: real)
    ensures forall x :: SqDev(m)(x) >= 0.0
  {
    forall x
      ensures SqDev(m)(x) >= 0.0
    {
      SquareSign(x - m);
    }
  }

  /** numpy's `std` divides by N: two values 0 and 2 have variance 1, not the sample variance 2. */
  lemma PopulationVarianceExample()
    ensures Variance([0.0, 2.0]) == 1.0
  {
    var xs := [0.0, 2.0];
    assert Sum(xs) == 2.0 by {
      assert xs[1..] == [2.0];
      assert xs[1..][1..] == [];
    }
    assert Mean(xs) == 1.0;
    var f := SqDev(1.0);
    assert SumOf(xs, f) == 2.0 by {
      assert xs[1..] == [2.0];
      assert xs[1..][1..] == [];
    }
  }

  /**
   * An accumulating loop for `np.mean`; numpy sums pairwise, but over exact
   * reals the summation order does not matter. It agrees with `sum(xs) / len(xs)`.
   */
  method NpMean(xs: seq<real>) returns (m: real)
    requires |xs| > 0
    ensures m == Mean(xs)
  {
    var acc := 0.0;
    var i := 0;
    while i < |xs|
      invariant 0 <= i <= |xs|
      invariant acc == Sum(xs[..i])
    {
      assert xs[..i + 1] == xs[..i] + [xs[i]];
      SumOfConcat(xs[..i], [xs[i]], Identity);
      assert SumOf([xs[i]], Identity) == xs[i];
      acc := acc + xs[i];
      i := i + 1;
    }
    assert xs[..i] == xs;
    m := acc / (|xs| as real);
  }
}

=== FILE: wrappers.dfy ===
/** Failure-compatible wrappers shared by the evaluation model. */
module Wrappers {

  /** A value that may be absent, as Python's `None` or an unset name. */
  datatype Option<+T> = None | Some(value: T)

  /** The outcome of an operation that either yields a value or raises. */
  datatype Result<+T, +E> = Ok(value: T) | Err(error: E) {

    predicate IsFailure() {
      Err?
    }

    function PropagateFailure<U>(): Result<U, E>
      requires Err?
    {
      Err(error)
    }

    function Extract(): T
      requires Ok?
    {
      value
    }
  }
}
